=== FILE: README.md ===
# Space-shooter engine and account rules, in Dafny

This project models the core of a browser arcade shooter in the style of Space Invaders:

- The game engine of `game.js`. The player's ship moves at the bottom of the canvas and fires at a 4 x 5 enemy grid. The grid bounces around the top 40% of the canvas and fires back.
- The account rules of `main.js`: registration, login and the per-session score list.

Everything is a pure function over immutable records:

- `GameState` holds the player, the enemies, the two bullet lists, score, lives, timer, the formation velocity (`vx`, `vy`), the enemy-shot speed, the speed-up count, the fire cooldown and a run status. The status is `Running` or `Ended(Win | Lost | TimeUp)`.
- `updateGame` (one 20 ms tick) is `Engine.UpdateGame`.
- `updateTimer` (one second) is `Countdown.UpdateTimer`.
- The key handlers are `Input.KeyDown` and `Input.KeyUp`.
- `startGame` is `Engine.StartGame`.
- A run is a fold of these over a list of `Engine.Event`s (`Engine.Run`).

Positions and velocities are Dafny `real`s. The source's floating-point values (`vx/50`, `0.4226`, `0.9063`) are exact rationals there, so no rounding is modelled.

Each `Math.random()` draw is a parameter in [0, 1):

- the formation's initial direction;
- the ship's start column;
- the 2% enemy-fire roll;
- the choice of firing enemy, `Math.floor(roll * n)`.

`Date.now()` is an integer parameter.

`Entities.Valid` is the invariant every reachable state keeps:

- at most four speed-ups;
- `|vx| = |vy| = 50 + 20 * speedUps`;
- enemy-shot speed `200 + 20 * speedUps`, and every enemy shot in flight falls straight down at exactly that speed (a speed-up also speeds up shots already in flight);
- lives in 0..3, and at least 1 while running;
- the ship overshoots no edge of its zone by a full step (5 units) or more.

`Engine.RunKeepsValid` proves this over any sequence of events. `Engine.EndedIsFinal` proves that no event changes an ended run.

Two behaviours of the code are easy to miss, and the model keeps both:

- The ship is not clamped to `[0, width - 24]`. The code only checks `x > 0` before a 5-unit step to the left (game.js:167), so the ship can reach `x = -4.9`. The model states the bound as "never a full step outside".
- A speed-up also speeds up enemy shots already in flight (game.js:157), not just the ones fired later.

Modules, one per part of the program:

- `Options`: the optional value.
- `Text`: the string helpers. These are ASCII case mapping, the regex classes `[A-Za-z]` and `\d`, JavaScript's `trim`, UTF-16 length and decimal rendering.
- `Geometry`: `rectsIntersect`.
- `Entities`: constants, records, `createEnemies` and the invariant.
- `Input`: key edges and `fireBullet`.
- `Motion`: player steps, the formation bounce, bullet advance and culling, and `enemyFire`.
- `Collisions`: `checkCollisions`.
- `Countdown`: `updateTimer`.
- `Engine`: `startGame`, `updateGame`, events and runs, and `endGame`'s message.
- `Accounts`: the `main.js` rules.

## Model

| member | source | states |
|---|---|---|
| Geometry.IntersectsIffCommonPoint | game.js:25-27 | for rectangles of non-negative size, the test holds exactly when the two closed rectangles share a point |
| Geometry.IntersectsSymmetric | game.js:25-27 | the overlap test does not depend on argument order |
| Geometry.SharedEdgeIntersects | game.js:25-27 | rectangles that only touch along an edge count as intersecting, because the comparisons are strict |
| Geometry.SharedCornerIntersects | game.js:25-27 | rectangles that only touch at a corner count as intersecting |
| Geometry.SeparatedDoNotIntersect | game.js:25-27 | any positive horizontal gap means no hit |
| Entities.CreateEnemies | game.js:139-144 | exactly 20 enemies in row-major order; the k-th is in row k/5 and sits at (100 + 60·(k mod 5), 50 + 36·(k/5)) |
| Entities.GridRowsHoldFive | game.js:141-143 | each of the four rows holds exactly its five enemies, columns 0..4 in order |
| Entities.GridIsDisjoint | game.js:2-4 | with spacing 60 x 36 and size 24, no two enemies of a fresh grid overlap |
| Entities.PointsForRowDecrease | game.js:196 | the row table `[20,15,10,5]` strictly decreases down the grid, from 20 to 5 |
| Input.ShotDirection | game.js:86-91 | a shot goes (0, -300) unless exactly one of left/right is held; then it goes (∓300·0.4226, -300·0.9063), negative x for left; it always climbs and the two diagonals mirror each other |
| Input.ShotFrom | game.js:93-94 | a shot starts centred on the ship's nose (x + 9, sized 6 x 10) at the ship's top edge, with the velocity above |
| Input.FireBullet | game.js:85-95 | appends exactly one shot, keeps the earlier shots, and changes nothing else |
| Input.KeyDown | game.js:65-74 | fires exactly when the key matches the fire key case-insensitively and no cooldown is set, then sets the cooldown; the shot list is then the old list plus exactly the one shot from the ship, and otherwise stays as it was; an arrow key sets only its own flag; an ended run is untouched |
| Input.KeyUp | game.js:75-82 | releasing the fire key clears the cooldown; an arrow key clears only its own flag; nothing else changes |
| Input.HeldFireKeyFiresOnce | game.js:66-67 | a repeated key-down of the held fire key adds no shot |
| Input.ReleaseRearmsFire | game.js:65-76 | after the fire key is released, the next press fires exactly one shot |
| Input.OpposingFlagsCoexist | game.js:70-71 | left and right can both be held, and a shot then goes straight up |
| Motion.StepAxis | game.js:167-170 | an axis moves by exactly one 5-unit step or not at all; back only when its flag is held and it is past the low edge, forward only when its flag is held and its far side is short of the high edge; with both flags held the back step is taken first and the forward guard is tested on where it left the ship, so it stays put, goes back or goes forward according to which guards pass; it never goes a full step outside its band |
| Motion.MovePlayer | game.js:166-170 | only the position changes: x is guarded by 0 and the width, y by 60% of the height and the height, and the player zone is kept |
| Motion.ScanFlips | game.js:172-176 | an axis flips exactly when some enemy's pre-move projection reaches that axis's boundary (0..width, or 0..40% of the height) |
| Motion.Bounce | game.js:177 | a flip negates a velocity and never changes its magnitude |
| Motion.Translate | game.js:178 | every enemy moves by the same offset, so rows and all relative offsets are kept |
| Motion.MoveFormation | game.js:172-178 | the velocity flips exactly when a projection crosses, keeps its magnitude, and every enemy then moves by the new velocity / 50 |
| Motion.LeftEdgeBounce | game.js:174-178 | a formation at x = 0 moving at vx = -50 turns to +50 in the same tick, and every enemy moves right by 1 |
| Motion.Advance | game.js:181-182 | each bullet moves by its own velocity / 50, and velocities are kept |
| Motion.CullPlayerShots | game.js:183 | the player shots kept are exactly those with y > -10 and -10 < x < width + 10, each with all its copies, and none is added |
| Motion.CullEnemyShots | game.js:184 | the enemy shots kept are exactly those with y < height + 10, each with all its copies; the newest shot stays last if it is kept |
| Motion.Filter | game.js:183-184 | the result holds exactly the values of the input that pass the test, is no longer, and takes no value more often than the input |
| Motion.FilterCount | game.js:183-184 | filtering keeps every copy of a kept value and drops every copy of the others |
| Motion.FilterAppend | game.js:183-184 | filtering a concatenation is filtering each part, so the kept elements stay in their order |
| Motion.FilterKeepsLast | game.js:184 | if the last element is kept, it is still the last one after filtering, so the newest enemy shot stays where `enemyFire` looks for it |
| Motion.CullPlayerShotsAppend | game.js:183 | culling the player shots keeps their order: culling a concatenation culls each part |
| Motion.CullEnemyShotsAppend | game.js:184 | culling the enemy shots keeps their order: culling a concatenation culls each part |
| Motion.PickIndex | game.js:101 | `Math.floor(roll * n)` for a roll in [0, 1) is always a valid enemy index |
| Motion.PickIndexReachesEvery | game.js:101 | every enemy index is chosen by some roll |
| Motion.EnemyFire | game.js:98-104 | no shot while the newest enemy shot is above 75% of the height, or when there are no enemies; otherwise exactly one straight-down shot from below some live enemy at the current speed |
| Collisions.FirstHit | game.js:193-194 | the index found is that of the first enemy the shot overlaps; there is none exactly when the shot overlaps no enemy |
| Collisions.HitEnemies | game.js:193-199 | one shot is spent per destroyed enemy and the k-th spent shot overlaps the k-th destroyed enemy; the shots left plus the spent shots are exactly the shots there were; the survivors plus the destroyed are exactly the enemies there were |
| Collisions.HittingShotIsSpent | game.js:193-199 | of two shots at one enemy, whichever order they come in, the one that overlaps it is spent and the other flies on |
| Collisions.HitEnemiesComplete | game.js:193-199 | after the pass, no surviving shot overlaps a surviving enemy |
| Collisions.HitEnemiesSound | game.js:193-199 | every destroyed enemy was overlapped by one of the shots |
| Collisions.PointsBounds | game.js:196 | each destroyed enemy is worth between 5 and 20 points |
| Collisions.PointsAppend | game.js:196 | the points of two lists of destroyed enemies add up |
| Collisions.PointsOfSameEnemies | game.js:196 | the points depend only on which enemies were destroyed, not on their order |
| Collisions.Respawn | game.js:207-208 | the player returns to the spawn point with all four movement flags cleared |
| Collisions.HitPlayer | game.js:201-212 | every hit costs exactly one life; every hit removes its shot except the fatal one; the shots left are the old ones in order with only shots overlapping the player or its respawned self taken out; the player is either unchanged or respawned |
| Collisions.DropsOnlyHitsCounts | game.js:201-206 | every copy of a shot that the player pass took out overlaps the player or its respawned self |
| Collisions.HitCostsLife | game.js:201-204 | from a positive count, the pass costs lives exactly when some enemy shot overlaps the player |
| Collisions.HitRespawnsWithLifeLeft | game.js:201-212 | one enemy shot overlapping a player with two lives costs one life, is removed, and respawns the player |
| Collisions.HitPlayerLives | game.js:204 | from a positive count, lives never go below 0, and the run is lost exactly when they reach 0 |
| Collisions.HitPlayerRespawns | game.js:205-210 | a pass without a hit changes nothing; a non-fatal hit leaves the player respawned |
| Collisions.CheckCollisions | game.js:190-215 | the survivors and the shots left are those of the shot-against-enemy pass, and the score rises by exactly the row value `[20,15,10,5][row]` of each destroyed enemy (so by 5..20 each); the enemy shots, the player and the lives are those of the player pass: lives are lost exactly when some enemy shot overlaps the player, one per hit, and only shots overlapping the player or its respawned self are removed; the run is lost iff the lives reach 0, and otherwise won iff no enemy is left; nothing else changes |
| Collisions.ScoreCountsDestroyed | game.js:193-199 | for any list of enemies that, with the survivors, makes up the grid before the pass, the score rises by exactly their row values |
| Collisions.LastEnemyHit | game.js:190-214 | one shot hitting the last enemy destroys both, scores that enemy's row value, and wins the run |
| Collisions.EdgeHitOnTopRow | game.js:190-214 | a shot touching a top-row enemy only along an edge destroys it: +20 points, and with no enemy left the run is won |
| Collisions.BottomRowHitScoresFive | game.js:190-214 | a shot overlapping a bottom-row enemy destroys it for +5 points, and with no enemy left the run is won |
| Collisions.EnemyShotCostsLife | game.js:190-214 | one enemy shot overlapping the player with two lives left removes the shot, respawns the player and leaves one life, and the run goes on |
| Collisions.NoHitsKeepLives | game.js:201-212 | enemy shots that all miss cost no life and leave the player and the shots as they were |
| Countdown.SpeedUp | game.js:152-153 | a speed-up adds 20 to the magnitude and keeps the sign |
| Countdown.HastenShots | game.js:157 | every in-flight enemy shot keeps its place and position and gains 20 in vy, and no shot is added or lost |
| Countdown.HastenKeepsShotsAtSpeed | game.js:157 | shots all falling straight down at one speed all fall at that speed plus 20 afterwards |
| Countdown.UpdateTimer | game.js:147-162 | the timer drops by one. At or below 0 the run ends on time and nothing else changes. Otherwise, on a multiple of 5 with fewer than 4 speed-ups, vx and vy gain 20 in magnitude with their signs kept, and the shot speed and every in-flight shot's vy gain 20 and the count rises by one; else only the timer changes. The count never exceeds 4 |
| Countdown.LastSecondEndsRun | game.js:148 | with one second left, the next second ends the run on time with the score unchanged |
| Countdown.NoSpeedUpAfterCap | game.js:150-160 | after four speed-ups, no velocity or shot speed changes again |
| Engine.SpawnColumn | game.js:119 | the ship's random start column lies inside the arena |
| Engine.StartGameAsWritten | game.js:114-127 | the reset: score 0, lives 3, no speed-ups, timer = minutes·60, \|vx\| = 50 with vy = vx, shot speed 200, the fresh grid, no bullets, the ship on its spawn point with no flags held; the fire cooldown is carried over |
| Engine.StartGame | game.js:114-127 | the corrected reset: score 0, lives 3, no speed-ups, timer = minutes·60, \|vx\| = 50 with vy = vx, shot speed 200, the fresh grid, no bullets; the ship of the chosen colour at its random start column, resting on the bottom edge (y = height − 24), with no flags held; the arena and fire key as given; the cooldown cleared; the invariant holds in any valid arena |
| Engine.StartKeepsValid | game.js:114-127 | a fresh start in a valid arena satisfies the invariant |
| Engine.StaleCooldownSwallowsFirstShot | game.js:114-115 | a run that ended with the fire key held keeps its cooldown through the release; a restart as written then ignores the first fire press |
| Engine.FreshStartFiresFirstShot | game.js:66-67 | after the corrected reset, the first fire press fires exactly one shot |
| Engine.MoveAll | game.js:166-184 | the movement phase of a tick: the player moves; the enemies and vx, vy are those of the formation move (magnitudes kept); the player shots are the advanced shots culled; with a fire roll of 2% or more the enemy shots are only advanced and culled, otherwise `enemyFire` runs first, so at most one enemy shot is added; enemy shots keep the current speed; nothing else changes |
| Engine.UpdateGame | game.js:165-187 | a tick never lowers the score, raises the lives or grows the grid; the formation keeps its speed; the timer, speed-ups, shot speed, the fire key and the fire cooldown are untouched; with lives left, the run is lost iff they run out, and otherwise won iff no enemy is left; an ended run is unchanged |
| Engine.UpdateGameKeepsValid | game.js:165-186 | a tick keeps the invariant; the score never drops, the lives never rise, and the timer and speed-up count are untouched |
| Engine.StepKeepsValid | game.js:65-215 | every event keeps the invariant; score, lives and speed-up count each move one way only; an ended run is unchanged |
| Engine.RunKeepsValid | game.js:147-215 | over any sequence of events: the invariant holds and speed-ups stay ≤ 4; the score only rises, lives only fall, speed-ups only rise |
| Engine.EndedIsFinal | game.js:36-43 | once ended, no sequence of events changes the state |
| Engine.EndMessage | game.js:241-244 | "Champion!" for a win and "You Lost!" for a loss. On time-up, "Winner! Score: " if the score is at least 100, else "You can do better! Score: ", followed by the score in canonical decimal digits: they read back as the score and start with "0" only when the score is 0 |
| Text.Trim | main.js:48 | the result starts and ends with no JavaScript white space |
| Text.LeadingSpaces | main.js:48 | counts the white space `s` starts with: all of it is white space, and the next character is not |
| Text.TrimStripsSpace | main.js:48 | the trimmed string is the infix of `s` after its leading white space, and everything after it is white space, so trimming removes white space and nothing else |
| Text.TrimIdempotent | main.js:48 | trimming twice trims nothing more |
| Text.DecimalRoundTrip | game.js:243 | the decimal rendering of a score reads back as the score |
| Text.LowerOfUpper | main.js:21 | upper-casing then lower-casing is the same as lower-casing |
| Accounts.CheckStrength | main.js:52-54 | a single scan accepts exactly the passwords with an ASCII letter, a digit and at least 8 UTF-16 code units |
| Accounts.Register | main.js:46-63 | the mismatch is rejected first, then a weak password, then a taken trimmed username, and a rejection leaves the users unchanged; success adds exactly the trimmed username and keeps every other user |
| Accounts.RegisteredUserCanLogIn | main.js:57-75 | whoever just registered can log in with the same username and password |
| Accounts.Login | main.js:70-79 | succeeds iff the trimmed user's stored password matches, or the pair is ("p", "testuser"); on success that user becomes current with an empty score list, others untouched; on failure the session is unchanged |
| Accounts.BuiltInCredentialAlwaysWorks | main.js:75 | the built-in pair logs in with any stored users, even with padding spaces around the username |
| Accounts.SessionKey | game.js:250 | runs are filed under the current user, or "guest" when there is none or the name is empty |
| Accounts.RecordRun | game.js:249-254 | a finished run is appended to the current user's list, and no other list changes |
| Accounts.LoginStartsFreshHistory | main.js:78-79 | right after logging in, a run recorded for a non-empty username is that user's only entry |
| Accounts.LabelForKey | main.js:21 | the space bar is labelled "Space"; any other key is shown upper-cased, with the same length and no lower-case ASCII letter, and it names the same key under the case-insensitive fire-key comparison |

## Findings

| source | as written | input that shows it | evidently intended | confidence | as-written member | corrected member |
|---|---|---|---|---|---|---|
| game.js:114-115 | `startGame` resets score, lives and speed-ups but not the module-level `fireCooldown` | A run ends (`endGame` → `pauseGame` removes the key listeners) while the fire key is held. The release is never seen, so the cooldown stays set. After "New Game", the first press of the fire key fires nothing. | a restart resets all run state, the cooldown included, so the first press fires | medium, not executed | Engine.StartGameAsWritten, Engine.StaleCooldownSwallowsFirstShot | Engine.StartGame, Engine.FreshStartFiresFirstShot |

## Left out

- Audio is not modelled: sound effects, background music, the music toggle and its saved volume/enabled settings. These are browser media calls.
- Drawing is not modelled: canvas drawing, HUD text, the `alert` and the high-score HTML. They only render the state.
- `setInterval`/`clearInterval` and the listener wiring are not modelled. A tick and a second are plain function calls. `pauseGame`'s effect is the final `Ended` status, under which every event is a no-op. Key events with no run started are not modelled, because there is no state before the first start.
- Storage is not modelled. The users map and the session lists are plain values, with no `localStorage`/`sessionStorage` serialisation. Run records hold integer time stamps instead of formatted date strings.
- Screen handling is not modelled: navigation, `showScreen`/`setNav`, logout, the About modal, the fire-key capture listener, reading the configuration form, and `preventDefault`.
- Floating point is not modelled: all arithmetic is exact over `real`. So 0.4226² + 0.9063² is exactly 0.99997045, not 1.
- Case mapping is ASCII-only. `toLowerCase`/`toUpperCase` are modelled on A-Z and a-z; other scripts and special mappings (e.g. ß → SS) are left unchanged.
- Mutation during iteration is not modelled. The source calls `splice` inside `forEach` (game.js:197, 206), so it can skip the next element or let one shot hit several enemies. The model resolves hits in list order and consumes each shot and enemy at most once.
- The source keeps iterating after `endGame('lost')` and can still call `endGame('win')`. In the model, a loss stops the pass and the win check is not made.
- The time limit is an integer number of minutes. A fractional `+gameTime.value` is not modelled.
- JavaScript object-key lookups for inherited names (`users["constructor"]`, `users["__proto__"]`) are not modelled. A map holds only the users registered.
- Error message texts are not modelled; errors are named values. The mismatch message in the source reads "Passwords do match".

=== FILE: accounts.dfy ===
/**
  The account rules of main.js as a pure validator over the stored users:
  registration (checked in order: password mismatch, weak password, taken
  username), login with its built-in credential, the per-user session score
  list, and the label shown for a chosen fire key.
 */
module Accounts {
  import opened Options
  import opened Text

  datatype User = User(password: string, first: string, last: string, email: string, birth: string)

  /** The registration form's fields as typed. */
  datatype Registration = Registration(
    username: string, password: string, confirm: string,
    first: string, last: string, email: string, birth: string)

  datatype RegisterError = PasswordMismatch | WeakPassword | UsernameTaken

  /** The users after a submission, and the error shown if it was rejected. */
  datatype RegisterResult = RegisterResult(users: map<string, User>, error: Option<RegisterError>)

  const MIN_PASSWORD_LENGTH: nat := 8

  predicate HasAsciiLetter(p: string) { exists i :: 0 <= i < |p| && IsAsciiLetter(p[i]) }

  predicate HasAsciiDigit(p: string) { exists i :: 0 <= i < |p| && IsAsciiDigit(p[i]) }

  /** The strength rule: an ASCII letter, a decimal digit and at least 8 UTF-16 code units. */
  predicate StrongPassword(p: string)
  {
    HasAsciiLetter(p) && HasAsciiDigit(p) && Utf16Length(p) >= MIN_PASSWORD_LENGTH
  }

  /** The strength check as one left-to-right scan of the password. */
  method CheckStrength(p: string) returns (ok: bool)
    ensures ok <==> StrongPassword(p)
  {
    var letter, digit := false, false;
    var units := 0;
    var i := 0;
    while i < |p|
      invariant 0 <= i <= |p|
      invariant letter <==> HasAsciiLetter(p[..i])
      invariant digit <==> HasAsciiDigit(p[..i])
      invariant units + Utf16Length(p[i..]) == Utf16Length(p)
    {
      assert p[..i + 1][i] == p[i];
      assert forall k :: 0 <= k < i ==> p[..i + 1][k] == p[..i][k];
      letter := letter || IsAsciiLetter(p[i]);
      digit := digit || IsAsciiDigit(p[i]);
      units := units + (if p[i] as int >= 0x1_0000 then 2 else 1);
      assert p[i..][1..] == p[i + 1..];
      i := i + 1;
    }
    assert p[..|p|] == p;
    ok := letter && digit && units >= MIN_PASSWORD_LENGTH;
  }

  /**
    The registration submit handler. The username is trimmed; a password that
    differs from its confirmation is rejected first, then a weak password,
    then a username already stored; a rejection leaves the users as they
    were. On success exactly the new username is added, with the trimmed
    name and e-mail fields, and every stored user is kept.
   */
  function Register(users: map<string, User>, f: Registration): (r: RegisterResult)
    ensures f.password != f.confirm ==> r == RegisterResult(users, Some(PasswordMismatch))
    ensures f.password == f.confirm && !StrongPassword(f.password) ==>
      r == RegisterResult(users, Some(WeakPassword))
    ensures f.password == f.confirm && StrongPassword(f.password) && Trim(f.username) in users ==>
      r == RegisterResult(users, Some(UsernameTaken))
    ensures r.error.None? <==>
      f.password == f.confirm && StrongPassword(f.password) && Trim(f.username) !in users
    ensures r.error.Some? ==> r.users == users
    ensures r.error.None? ==>
      && r.users.Keys == users.Keys + {Trim(f.username)}
      && r.users[Trim(f.username)] == User(f.password, Trim(f.first), Trim(f.last), Trim(f.email), f.birth)
      && forall k :: k in users ==> r.users[k] == users[k]
  {
    var u := Trim(f.username);
    if f.password != f.confirm then RegisterResult(users, Some(PasswordMismatch))
    else if !StrongPassword(f.password) then RegisterResult(users, Some(WeakPassword))
    else if u in users then RegisterResult(users, Some(UsernameTaken))
    else
      RegisterResult(users[u := User(f.password, Trim(f.first), Trim(f.last), Trim(f.email), f.birth)], None)
  }

  /** A score record of one finished run; the time stamps replace the formatted dates. */
  datatype RunRecord = RunRecord(score: nat, start: int, end: int)

  /** The session store: who is logged in, and each user's list of this session's runs. */
  datatype Session = Session(currentUser: Option<string>, scores: map<string, seq<RunRecord>>)

  /** The credential accepted whatever the stored users are. */
  const BUILT_IN_USERNAME: string := "p"
  const BUILT_IN_PASSWORD: string := "testuser"

  predicate CredentialsOk(users: map<string, User>, u: string, p: string)
  {
    (u in users && users[u].password == p) || (u == BUILT_IN_USERNAME && p == BUILT_IN_PASSWORD)
  }

  datatype LoginResult = LoginResult(session: Session, ok: bool)

  /**
    The login submit handler: the trimmed username and the password must
    match a stored user, or be the built-in pair. On success that user
    becomes the current one and their session score list starts empty;
    otherwise the session is unchanged.
   */
  function Login(users: map<string, User>, session: Session, username: string, password: string): (r: LoginResult)
    ensures r.ok <==> CredentialsOk(users, Trim(username), password)
    ensures !r.ok ==> r.session == session
    ensures r.ok ==> r.session.currentUser == Some(Trim(username))
    ensures r.ok ==> Trim(username) in r.session.scores && r.session.scores[Trim(username)] == []
    ensures r.ok ==> forall k :: k != Trim(username) ==>
      (k in r.session.scores <==> k in session.scores) &&
      (k in session.scores ==> r.session.scores[k] == session.scores[k])
  {
    var u := Trim(username);
    if CredentialsOk(users, u, password) then
      LoginResult(Session(Some(u), session.scores[u := []]), true)
    else LoginResult(session, false)
  }

  /** Whoever just registered can log in with the same username and password. */
  lemma RegisteredUserCanLogIn(users: map<string, User>, f: Registration, session: Session)
    requires Register(users, f).error.None?
    ensures Login(Register(users, f).users, session, f.username, f.password).ok
  {
  }

  /** The built-in pair logs in even with no stored users, padded with white space or not. */
  lemma BuiltInCredentialAlwaysWorks(users: map<string, User>, session: Session)
    ensures Login(users, session, " p ", BUILT_IN_PASSWORD).ok
    ensures Login(users, session, " p ", BUILT_IN_PASSWORD).session.currentUser == Some("p")
  {
    assert TrimStart(" p ") == "p ";
    assert TrimEnd("p ") == "p";
  }

  /** The key a session's runs are stored under: the current user, or "guest" when that is absent or empty. */
  function SessionKey(session: Session): (k: string)
    ensures k != []
    ensures session.currentUser.Some? && session.currentUser.value != [] ==> k == session.currentUser.value
    ensures session.currentUser.None? || session.currentUser.value == [] ==> k == "guest"
  {
    match session.currentUser
    case Some(u) => if u == [] then "guest" else u
    case None => "guest"
  }

  /** Appends one finished run to the current user's session list. */
  function RecordRun(session: Session, run: RunRecord): (r: Session)
    ensures r.currentUser == session.currentUser
    ensures SessionKey(session) in r.scores
    ensures var k := SessionKey(session);
      r.scores[k] == (if k in session.scores then session.scores[k] else []) + [run]
    ensures forall k :: k != SessionKey(session) ==>
      (k in r.scores <==> k in session.scores) &&
      (k in session.scores ==> r.scores[k] == session.scores[k])
  {
    var k := SessionKey(session);
    var earlier := if k in session.scores then session.scores[k] else [];
    session.(scores := session.scores[k := earlier + [run]])
  }

  /** Right after logging in, a user's session list holds exactly the runs finished since. */
  lemma LoginStartsFreshHistory(users: map<string, User>, session: Session, username: string,
                                password: string, run: RunRecord)
    requires Login(users, session, username, password).ok && Trim(username) != []
    ensures var s := Login(users, session, username, password).session;
      RecordRun(s, run).scores[Trim(username)] == [run]
  {
  }

  /**
    `labelForKey`: the space bar reads "Space"; any other key is shown
    upper-cased, which names the same key under the case-insensitive
    fire-key comparison.
   */
  function LabelForKey(k: string): (shown: string)
    ensures k == " " ==> shown == "Space"
    ensures k != " " ==> |shown| == |k|
    ensures k != " " ==> forall i :: 0 <= i < |shown| ==> !IsLowerAscii(shown[i])
    ensures k != " " ==> SameIgnoringCase(shown, k)
  {
    if k == " " then "Space"
    else
      LowerOfUpper(k);
      Upper(k)
  }
}

=== FILE: collisions.dfy ===
/**
  `checkCollisions`: player shots against enemies, then enemy shots against
  the player, then the win check. Each shot and each enemy is consumed at
  most once, and once the last life is lost nothing further happens.
 */
module Collisions {
  import opened Options
  import opened Geometry
  import opened Entities

  predicate ShotHitsEnemy(b: Bullet, e: Enemy)
  {
    Intersects(BulletRect(b), EnemyRect(e))
  }

  predicate ShotHitsPlayer(b: Bullet, p: Player)
  {
    Intersects(BulletRect(b), PlayerRect(p))
  }

  /** The first enemy, in list order, that the shot overlaps. */
  function FirstHit(b: Bullet, es: seq<Enemy>): (r: Option<nat>)
    ensures r.Some? ==> r.value < |es| && ShotHitsEnemy(b, es[r.value])
    ensures r.Some? ==> forall k :: 0 <= k < r.value ==> !ShotHitsEnemy(b, es[k])
    ensures r.None? <==> forall k :: 0 <= k < |es| ==> !ShotHitsEnemy(b, es[k])
    decreases |es|
  {
    if |es| == 0 then None
    else if ShotHitsEnemy(b, es[0]) then Some(0)
    else
      match FirstHit(b, es[1..])
      case None =>
        assert forall k :: 1 <= k < |es| ==> es[k] == es[1..][k - 1];
        None
      case Some(k) => Some(k + 1)
  }

  /** The points for a list of destroyed enemies, each by its row. */
  function Points(killed: seq<Enemy>): nat
    decreases |killed|
  {
    if |killed| == 0 then 0 else PointsForRow(killed[0].row) + Points(killed[1..])
  }

  /** Each destroyed enemy is worth between 5 and 20 points. */
  lemma {:induction false} PointsBounds(killed: seq<Enemy>)
    ensures 5 * |killed| <= Points(killed) <= 20 * |killed|
    decreases |killed|
  {
    if |killed| > 0 {
      PointsBounds(killed[1..]);
    }
  }

  lemma {:induction false} PointsAppend(a: seq<Enemy>, b: seq<Enemy>)
    ensures Points(a + b) == Points(a) + Points(b)
    decreases |a|
  {
    if |a| == 0 {
      assert a + b == b;
    } else {
      assert (a + b)[1..] == a[1..] + b;
      PointsAppend(a[1..], b);
    }
  }

  /** The list with its j-th element taken out, the rest in order. */
  function RemoveAt<T>(s: seq<T>, j: nat): (r: seq<T>)
    requires j < |s|
    ensures |r| == |s| - 1
    ensures multiset(r) + multiset{s[j]} == multiset(s)
  {
    assert s == s[..j] + [s[j]] + s[j + 1..];
    s[..j] + s[j + 1..]
  }

  lemma MultisetCancel<T>(a: multiset<T>, b: multiset<T>, c: multiset<T>)
    requires a + b == a + c
    ensures b == c
  {
    forall x
      ensures b[x] == c[x]
    {
      assert (a + b)[x] == (a + c)[x];
    }
  }

  /** The points for a list of destroyed enemies depend only on which enemies they are, not on their order. */
  lemma {:induction false} PointsOfSameEnemies(a: seq<Enemy>, b: seq<Enemy>)
    requires multiset(a) == multiset(b)
    ensures Points(a) == Points(b)
    decreases |a|
  {
    if |a| == 0 {
      assert |multiset(b)| == 0;
    } else {
      assert a[0] in multiset(b);
      var j :| 0 <= j < |b| && b[j] == a[0];
      var rest := RemoveAt(b, j);
      assert b == b[..j] + ([b[j]] + b[j + 1..]);
      PointsAppend(b[..j], [b[j]] + b[j + 1..]);
      assert ([b[j]] + b[j + 1..])[1..] == b[j + 1..];
      PointsAppend(b[..j], b[j + 1..]);
      assert a == [a[0]] + a[1..];
      assert multiset(a) == multiset{a[0]} + multiset(a[1..]);
      assert multiset(b) == multiset{a[0]} + multiset(rest);
      MultisetCancel(multiset{a[0]}, multiset(a[1..]), multiset(rest));
      PointsOfSameEnemies(a[1..], rest);
    }
  }

  /**
    The outcome of the shot-against-enemy pass: the shots left, the enemies
    left, the destroyed enemies, and the shots spent on them, the k-th spent
    shot being the one that destroyed the k-th destroyed enemy.
   */
  datatype EnemyHits = EnemyHits(shots: seq<Bullet>, enemies: seq<Enemy>, killed: seq<Enemy>, spent: seq<Bullet>)

  /**
    Player shots against enemies: in order, each shot destroys the first live
    enemy it overlaps and is spent with it, so one shot is spent per
    destroyed enemy, and the shots left and the shots spent are the shots
    there were, as the survivors and the destroyed are the enemies there
    were.
   */
  function HitEnemies(bs: seq<Bullet>, es: seq<Enemy>): (r: EnemyHits)
    ensures |r.shots| + |r.killed| == |bs|
    ensures multiset(r.shots) <= multiset(bs)
    ensures multiset(r.enemies) + multiset(r.killed) == multiset(es)
    ensures multiset(r.shots) + multiset(r.spent) == multiset(bs)
    ensures |r.spent| == |r.killed|
    ensures forall k :: 0 <= k < |r.killed| ==> ShotHitsEnemy(r.spent[k], r.killed[k])
    decreases |bs|
  {
    if |bs| == 0 then EnemyHits([], es, [], [])
    else
      match FirstHit(bs[0], es)
      case None =>
        var rest := HitEnemies(bs[1..], es);
        SplitAfterFirst(bs, rest.shots, rest.spent);
        EnemyHits([bs[0]] + rest.shots, rest.enemies, rest.killed, rest.spent)
      case Some(j) =>
        var rest := HitEnemies(bs[1..], RemoveAt(es, j));
        SplitAfterFirst(bs, rest.spent, rest.shots);
        SpentPairsStep(bs[0], es[j], rest.spent, rest.killed);
        EnemyHits(rest.shots, rest.enemies, [es[j]] + rest.killed, [bs[0]] + rest.spent)
  }

  /** Splitting the tail of `s` in two and adding its head to one part splits all of `s`. */
  lemma SplitAfterFirst<T>(s: seq<T>, a: seq<T>, b: seq<T>)
    requires |s| > 0 && multiset(a) + multiset(b) == multiset(s[1..])
    ensures multiset([s[0]] + a) + multiset(b) == multiset(s)
    ensures multiset(b) + multiset([s[0]] + a) == multiset(s)
    ensures |[s[0]] + a| + |b| == |s|
  {
    assert s == [s[0]] + s[1..];
    assert |multiset(a) + multiset(b)| == |multiset(s[1..])|;
  }

  /** Putting a matching pair in front keeps every spent shot paired with the enemy it hit. */
  lemma SpentPairsStep(b: Bullet, e: Enemy, spent: seq<Bullet>, killed: seq<Enemy>)
    requires ShotHitsEnemy(b, e) && |spent| == |killed|
    requires forall k :: 0 <= k < |killed| ==> ShotHitsEnemy(spent[k], killed[k])
    ensures forall k :: 0 <= k < |killed| + 1 ==> ShotHitsEnemy(([b] + spent)[k], ([e] + killed)[k])
  {
    forall k | 0 <= k < |killed| + 1
      ensures ShotHitsEnemy(([b] + spent)[k], ([e] + killed)[k])
    {
      if k > 0 {
        assert ([b] + spent)[k] == spent[k - 1] && ([e] + killed)[k] == killed[k - 1];
      }
    }
  }

  /** Of two shots at one enemy, the one that overlaps it is spent and the one that misses flies on. */
  lemma HittingShotIsSpent(a: Bullet, b: Bullet, e: Enemy)
    requires ShotHitsEnemy(a, e) && !ShotHitsEnemy(b, e)
    ensures HitEnemies([b, a], [e]) == EnemyHits([b], [], [e], [a])
    ensures HitEnemies([a, b], [e]) == EnemyHits([b], [], [e], [a])
  {
    assert FirstHit(a, [e]) == Some(0) && FirstHit(b, [e]) == None;
    assert RemoveAt([e], 0) == [];
    assert HitEnemies([a], [e]) == EnemyHits([], [], [e], [a]) by {
      assert [a][1..] == [];
    }
    assert HitEnemies([b], []) == EnemyHits([b], [], [], []) by {
      assert [b][1..] == [];
    }
    assert [b, a][1..] == [a] && [a, b][1..] == [b];
  }

  /** No shot of the list overlaps any enemy of the other list. */
  predicate NoOverlap(bs: seq<Bullet>, es: seq<Enemy>)
  {
    forall i, j :: 0 <= i < |bs| && 0 <= j < |es| ==> !ShotHitsEnemy(bs[i], es[j])
  }

  /** A shot that overlaps no enemy of a list can join shots that overlap none of a sub-multiset of it. */
  lemma MissingShotOverlapsNone(b: Bullet, shots: seq<Bullet>, enemies: seq<Enemy>, es: seq<Enemy>)
    requires NoOverlap(shots, enemies) && multiset(enemies) <= multiset(es)
    requires forall k :: 0 <= k < |es| ==> !ShotHitsEnemy(b, es[k])
    ensures NoOverlap([b] + shots, enemies)
  {
    forall i, j | 0 <= i < |shots| + 1 && 0 <= j < |enemies|
      ensures !ShotHitsEnemy(([b] + shots)[i], enemies[j])
    {
      if i == 0 {
        assert enemies[j] in multiset(es);
        var k :| 0 <= k < |es| && es[k] == enemies[j];
      } else {
        assert ([b] + shots)[i] == shots[i - 1];
      }
    }
  }

  /** After the pass no surviving shot overlaps a surviving enemy. */
  lemma {:induction false} HitEnemiesComplete(bs: seq<Bullet>, es: seq<Enemy>)
    ensures NoOverlap(HitEnemies(bs, es).shots, HitEnemies(bs, es).enemies)
    decreases |bs|
  {
    if |bs| > 0 {
      var r := HitEnemies(bs, es);
      match FirstHit(bs[0], es)
      case None =>
        HitEnemiesComplete(bs[1..], es);
        var rest := HitEnemies(bs[1..], es);
        assert r == rest.(shots := [bs[0]] + rest.shots);
        MissingShotOverlapsNone(bs[0], rest.shots, rest.enemies, es);
      case Some(j) =>
        HitEnemiesComplete(bs[1..], RemoveAt(es, j));
        var rest := HitEnemies(bs[1..], RemoveAt(es, j));
        assert r == rest.(killed := [es[j]] + rest.killed, spent := [bs[0]] + rest.spent);
    }
  }

  /** Some shot of the list overlaps the enemy. */
  predicate HitBySome(bs: seq<Bullet>, e: Enemy)
  {
    exists i :: 0 <= i < |bs| && ShotHitsEnemy(bs[i], e)
  }

  /** Every enemy of the list is overlapped by some shot. */
  predicate AllHitBySome(bs: seq<Bullet>, killed: seq<Enemy>)
  {
    forall k :: 0 <= k < |killed| ==> HitBySome(bs, killed[k])
  }

  /** Every destroyed enemy was overlapped by one of the shots: the one spent on it. */
  lemma HitEnemiesSound(bs: seq<Bullet>, es: seq<Enemy>)
    ensures AllHitBySome(bs, HitEnemies(bs, es).killed)
  {
    var r := HitEnemies(bs, es);
    forall k | 0 <= k < |r.killed|
      ensures HitBySome(bs, r.killed[k])
    {
      var b := r.spent[k];
      assert b in multiset(r.spent);
      assert multiset(bs)[b] == multiset(r.shots)[b] + multiset(r.spent)[b];
      assert b in multiset(bs);
      var i :| 0 <= i < |bs| && bs[i] == r.spent[k];
      assert ShotHitsEnemy(bs[i], r.killed[k]);
    }
  }

  /** The player back at the spawn point with every movement flag cleared. */
  function Respawn(p: Player): (r: Player)
    ensures r.x == p.spawnX && r.y == p.spawnY
    ensures !r.left && !r.right && !r.up && !r.down
    ensures r.spawnX == p.spawnX && r.spawnY == p.spawnY && r.color == p.color
  {
    p.(x := p.spawnX, y := p.spawnY, left := false, right := false, up := false, down := false)
  }

  datatype PlayerHits = PlayerHits(shots: seq<Bullet>, player: Player, lives: int, lost: bool)

  /**
    Enemy shots against the player, in order. A hit costs exactly one life;
    if that was the last life the run is lost and nothing further happens,
    otherwise the shot is removed and the player respawns.
   */
  function HitPlayer(bs: seq<Bullet>, p: Player, lives: int): (r: PlayerHits)
    ensures lives - r.lives == |bs| - |r.shots| + (if r.lost then 1 else 0)
    ensures |r.shots| <= |bs|
    ensures multiset(r.shots) <= multiset(bs)
    ensures r.player == p || r.player == Respawn(p)
    ensures r.lost ==> r.lives == 0
    ensures DropsOnlyHits(bs, r.shots, p, Respawn(p))
    decreases |bs|
  {
    if |bs| == 0 then PlayerHits([], p, lives, false)
    else
      assert bs == [bs[0]] + bs[1..];
      if ShotHitsPlayer(bs[0], p) then
        if lives - 1 == 0 then
          DropsNothing(bs, p, Respawn(p));
          PlayerHits(bs, p, 0, true)
        else
          var rest := HitPlayer(bs[1..], Respawn(p), lives - 1);
          RespawnTwice(p);
          DropsOnlyHitsWiden(bs[1..], rest.shots, p, Respawn(p));
          DropsHitFirst(bs, rest.shots, p, Respawn(p));
          rest
      else
        var rest := HitPlayer(bs[1..], p, lives);
        DropsKeepFirst(bs, rest.shots, p, Respawn(p));
        rest.(shots := [bs[0]] + rest.shots)
  }

  /** One step of the enemy-shot pass, as far as lives and the loss flag go. */
  lemma HitPlayerStep(bs: seq<Bullet>, p: Player, lives: int)
    requires |bs| > 0
    ensures var r := HitPlayer(bs, p, lives);
      if !ShotHitsPlayer(bs[0], p) then
        r.lives == HitPlayer(bs[1..], p, lives).lives && r.lost == HitPlayer(bs[1..], p, lives).lost
      else if lives - 1 == 0 then r.lives == 0 && r.lost
      else r == HitPlayer(bs[1..], Respawn(p), lives - 1)
  {
  }

  /**
    From a positive count, lives never go below zero and the run is lost
    exactly when they reach zero.
   */
  lemma {:induction false} HitPlayerLives(bs: seq<Bullet>, p: Player, lives: int)
    requires lives >= 1
    ensures 0 <= HitPlayer(bs, p, lives).lives <= lives
    ensures HitPlayer(bs, p, lives).lost <==> HitPlayer(bs, p, lives).lives == 0
    decreases |bs|
  {
    var r := HitPlayer(bs, p, lives);
    if |bs| == 0 {
      assert r == PlayerHits([], p, lives, false);
    } else {
      HitPlayerStep(bs, p, lives);
      if !ShotHitsPlayer(bs[0], p) {
        HitPlayerLives(bs[1..], p, lives);
        var rest := HitPlayer(bs[1..], p, lives);
        assert r.lives == rest.lives && r.lost == rest.lost;
      } else if lives - 1 != 0 {
        HitPlayerLives(bs[1..], Respawn(p), lives - 1);
        var rest := HitPlayer(bs[1..], Respawn(p), lives - 1);
        assert r == rest;
      } else {
        assert r.lives == 0 && r.lost;
      }
    }
  }

  /**
    A pass that costs no life changes nothing; a pass with a hit that is not
    fatal leaves the player at the spawn point with no movement flag held.
   */
  lemma {:induction false} HitPlayerRespawns(bs: seq<Bullet>, p: Player, lives: int)
    ensures var r := HitPlayer(bs, p, lives);
      r.lives == lives ==> !r.lost && r.player == p && r.shots == bs
    ensures var r := HitPlayer(bs, p, lives);
      !r.lost && r.lives < lives ==> r.player == Respawn(p)
    decreases |bs|
  {
    if |bs| > 0 {
      assert bs == [bs[0]] + bs[1..];
      if ShotHitsPlayer(bs[0], p) {
        if lives - 1 != 0 {
          HitPlayerRespawns(bs[1..], Respawn(p), lives - 1);
          assert Respawn(Respawn(p)) == Respawn(p);
          var rest := HitPlayer(bs[1..], Respawn(p), lives - 1);
          assert HitPlayer(bs, p, lives) == rest;
          assert rest.lives < lives;
        }
      } else {
        HitPlayerRespawns(bs[1..], p, lives);
        var rest := HitPlayer(bs[1..], p, lives);
        assert HitPlayer(bs, p, lives) == rest.(shots := [bs[0]] + rest.shots);
      }
    }
  }

  /** Some shot of the list overlaps the player. */
  predicate SomeShotHits(bs: seq<Bullet>, p: Player)
  {
    exists i :: 0 <= i < |bs| && ShotHitsPlayer(bs[i], p)
  }

  /**
    From a positive count, the pass costs a life exactly when some enemy
    shot overlaps the player: until the first such shot the player stays
    where it was, so that shot hits.
   */
  lemma {:induction false} HitCostsLife(bs: seq<Bullet>, p: Player, lives: int)
    requires lives >= 1
    ensures HitPlayer(bs, p, lives).lives < lives <==> SomeShotHits(bs, p)
    decreases |bs|
  {
    var r := HitPlayer(bs, p, lives);
    if |bs| == 0 {
      assert r == PlayerHits([], p, lives, false);
    } else {
      HitPlayerStep(bs, p, lives);
      if ShotHitsPlayer(bs[0], p) {
        if lives - 1 != 0 {
          HitPlayerLives(bs[1..], Respawn(p), lives - 1);
        }
      } else {
        HitCostsLife(bs[1..], p, lives);
        if SomeShotHits(bs, p) {
          var i :| 0 <= i < |bs| && ShotHitsPlayer(bs[i], p);
          assert bs[1..][i - 1] == bs[i];
        }
        if SomeShotHits(bs[1..], p) {
          var i :| 0 <= i < |bs[1..]| && ShotHitsPlayer(bs[1..][i], p);
          assert bs[i + 1] == bs[1..][i];
        }
      }
    }
  }

  lemma RespawnTwice(p: Player)
    ensures Respawn(Respawn(p)) == Respawn(p)
  {
  }

  /**
    `shots` is `bs` with some shots left out, in the same order, and every
    shot left out overlaps the player at `p` or at `q`.
   */
  predicate DropsOnlyHits(bs: seq<Bullet>, shots: seq<Bullet>, p: Player, q: Player)
    decreases |bs|
  {
    if |bs| == 0 then shots == []
    else
      || (|shots| > 0 && shots[0] == bs[0] && DropsOnlyHits(bs[1..], shots[1..], p, q))
      || ((ShotHitsPlayer(bs[0], p) || ShotHitsPlayer(bs[0], q)) && DropsOnlyHits(bs[1..], shots, p, q))
  }

  lemma {:induction false} DropsNothing(bs: seq<Bullet>, p: Player, q: Player)
    ensures DropsOnlyHits(bs, bs, p, q)
    decreases |bs|
  {
    if |bs| > 0 {
      DropsNothing(bs[1..], p, q);
    }
  }

  lemma DropsKeepFirst(bs: seq<Bullet>, rest: seq<Bullet>, p: Player, q: Player)
    requires |bs| > 0 && DropsOnlyHits(bs[1..], rest, p, q)
    ensures DropsOnlyHits(bs, [bs[0]] + rest, p, q)
  {
    assert ([bs[0]] + rest)[1..] == rest;
  }

  lemma DropsHitFirst(bs: seq<Bullet>, rest: seq<Bullet>, p: Player, q: Player)
    requires |bs| > 0 && ShotHitsPlayer(bs[0], p) && DropsOnlyHits(bs[1..], rest, p, q)
    ensures DropsOnlyHits(bs, rest, p, q)
  {
  }

  /** Shots that overlap the player at `q` overlap it at `p` or at `q`. */
  lemma {:induction false} DropsOnlyHitsWiden(bs: seq<Bullet>, shots: seq<Bullet>, p: Player, q: Player)
    requires DropsOnlyHits(bs, shots, q, q)
    ensures DropsOnlyHits(bs, shots, p, q)
    decreases |bs|
  {
    if |bs| > 0 {
      if |shots| > 0 && shots[0] == bs[0] && DropsOnlyHits(bs[1..], shots[1..], q, q) {
        DropsOnlyHitsWiden(bs[1..], shots[1..], p, q);
      } else {
        DropsOnlyHitsWiden(bs[1..], shots, p, q);
      }
    }
  }

  /** In counts: a shot with fewer copies left than there were overlaps the player at `p` or at `q`. */
  lemma {:induction false} DropsOnlyHitsCounts(bs: seq<Bullet>, shots: seq<Bullet>, p: Player, q: Player)
    requires DropsOnlyHits(bs, shots, p, q)
    ensures forall b :: multiset(shots)[b] < multiset(bs)[b] ==> ShotHitsPlayer(b, p) || ShotHitsPlayer(b, q)
    decreases |bs|
  {
    if |bs| > 0 {
      assert bs == [bs[0]] + bs[1..];
      assert multiset(bs) == multiset{bs[0]} + multiset(bs[1..]);
      if |shots| > 0 && shots[0] == bs[0] && DropsOnlyHits(bs[1..], shots[1..], p, q) {
        DropsOnlyHitsCounts(bs[1..], shots[1..], p, q);
        assert shots == [shots[0]] + shots[1..];
        assert multiset(shots) == multiset{bs[0]} + multiset(shots[1..]);
      } else {
        DropsOnlyHitsCounts(bs[1..], shots, p, q);
      }
    }
  }

  /** With two lives, a single shot that hits costs one life, is removed, and sends the player back to the spawn point. */
  lemma HitRespawnsWithLifeLeft(b: Bullet, p: Player)
    requires ShotHitsPlayer(b, p)
    ensures HitPlayer([b], p, 2) == PlayerHits([], Respawn(p), 1, false)
  {
    assert [b][1..] == [];
  }

  /**
    One collision pass as `checkCollisions` runs it: the player shots
    against the enemies, then the enemy shots against the player, then the
    loss or win. An ended run is left alone.
   */
  function CollisionPass(s: GameState): GameState
  {
    if !s.status.Running? then s
    else
      var eh := HitEnemies(s.playerBullets, s.enemies);
      var ph := HitPlayer(s.enemyBullets, s.player, s.lives);
      s.(playerBullets := eh.shots, enemies := eh.enemies, score := s.score + Points(eh.killed),
         enemyBullets := ph.shots, player := ph.player, lives := ph.lives,
         status := if ph.lost then Ended(Lost) else if |eh.enemies| == 0 then Ended(Win) else Running)
  }

  /** The shot-against-enemy half of a pass, and what it does to the score. */
  lemma PassEnemySide(s: GameState)
    requires s.status.Running?
    ensures var r := CollisionPass(s);
      var eh := HitEnemies(s.playerBullets, s.enemies);
      && r.enemies == eh.enemies && r.playerBullets == eh.shots
      && r.score == s.score + Points(eh.killed)
      && |s.enemies| - |r.enemies| == |s.playerBullets| - |r.playerBullets| >= 0
      && 5 * (|s.enemies| - |r.enemies|) <= r.score - s.score <= 20 * (|s.enemies| - |r.enemies|)
      && multiset(r.enemies) <= multiset(s.enemies)
      && multiset(r.playerBullets) <= multiset(s.playerBullets)
  {
    var eh := HitEnemies(s.playerBullets, s.enemies);
    PointsBounds(eh.killed);
    assert |eh.enemies| + |eh.killed| == |s.enemies| by {
      assert |multiset(eh.enemies) + multiset(eh.killed)| == |multiset(s.enemies)|;
    }
  }

  /** The enemy-shot-against-player half of a pass. */
  lemma PassPlayerSide(s: GameState)
    requires s.status.Running?
    ensures var r := CollisionPass(s);
      var ph := HitPlayer(s.enemyBullets, s.player, s.lives);
      && r.enemyBullets == ph.shots && r.player == ph.player && r.lives == ph.lives
      && (r.status == Ended(Lost) <==> ph.lost)
      && multiset(r.enemyBullets) <= multiset(s.enemyBullets)
      && s.lives - r.lives == |s.enemyBullets| - |r.enemyBullets| + (if r.status == Ended(Lost) then 1 else 0)
      && (r.player == s.player || r.player == Respawn(s.player))
  {
    var r := CollisionPass(s);
    var ph := HitPlayer(s.enemyBullets, s.player, s.lives);
    assert r.enemyBullets == ph.shots && r.player == ph.player && r.lives == ph.lives;
    assert r.status == Ended(Lost) <==> ph.lost;
    assert multiset(ph.shots) <= multiset(s.enemyBullets);
  }

  /** How a pass from a positive life count ends. */
  lemma PassStatus(s: GameState)
    requires s.status.Running? && s.lives >= 1
    ensures var r := CollisionPass(s);
      && 0 <= r.lives <= s.lives
      && (r.lives == s.lives ==> r.player == s.player)
      && (r.status == Ended(Lost) <==> r.lives == 0)
      && (r.status == Ended(Win) <==> r.lives > 0 && |r.enemies| == 0)
      && (r.status == Running <==> r.lives > 0 && |r.enemies| > 0)
  {
    HitPlayerRespawns(s.enemyBullets, s.player, s.lives);
    HitPlayerLives(s.enemyBullets, s.player, s.lives);
  }

  /**
    One collision pass. Points go up by each destroyed enemy's row value and
    one shot is spent per destroyed enemy; a life is lost exactly when some
    enemy shot overlaps the player, one per hit, and every shot removed had
    hit it; the run is lost exactly when the lives reach zero, and otherwise
    won when no enemy is left. Nothing else in the state changes, and an
    ended run is left alone.
   */
  function CheckCollisions(s: GameState): (r: GameState)
    ensures !s.status.Running? ==> r == s
    ensures s.status.Running? ==>
      && |s.enemies| - |r.enemies| == |s.playerBullets| - |r.playerBullets| >= 0
      && 5 * (|s.enemies| - |r.enemies|) <= r.score - s.score <= 20 * (|s.enemies| - |r.enemies|)
      && multiset(r.enemies) <= multiset(s.enemies)
      && multiset(r.playerBullets) <= multiset(s.playerBullets)
      && multiset(r.enemyBullets) <= multiset(s.enemyBullets)
      && s.lives - r.lives == |s.enemyBullets| - |r.enemyBullets| + (if r.status == Ended(Lost) then 1 else 0)
      && (r.player == s.player || r.player == Respawn(s.player))
    ensures s.status.Running? ==>
      var eh := HitEnemies(s.playerBullets, s.enemies);
      && r.enemies == eh.enemies && r.playerBullets == eh.shots
      && r.score == s.score + Points(eh.killed)
    ensures s.status.Running? ==>
      var ph := HitPlayer(s.enemyBullets, s.player, s.lives);
      && r.enemyBullets == ph.shots && r.player == ph.player && r.lives == ph.lives
      && (r.status == Ended(Lost) <==> ph.lost)
    ensures s.status.Running? ==>
      DropsOnlyHits(s.enemyBullets, r.enemyBullets, s.player, Respawn(s.player))
    ensures s.status.Running? && s.lives >= 1 ==>
      (r.lives < s.lives <==> SomeShotHits(s.enemyBullets, s.player))
    ensures s.status.Running? && s.lives >= 1 ==>
      && 0 <= r.lives <= s.lives
      && (r.lives == s.lives ==> r.player == s.player)
      && (r.status == Ended(Lost) <==> r.lives == 0)
      && (r.status == Ended(Win) <==> r.lives > 0 && |r.enemies| == 0)
      && (r.status == Running <==> r.lives > 0 && |r.enemies| > 0)
    ensures r.(enemies := s.enemies, playerBullets := s.playerBullets, enemyBullets := s.enemyBullets,
               score := s.score, lives := s.lives, player := s.player, status := s.status) == s
  {
    if !s.status.Running? then s
    else
      PassEnemySide(s);
      PassPlayerSide(s);
      if s.lives >= 1 then
        PassStatus(s);
        HitCostsLife(s.enemyBullets, s.player, s.lives);
        CollisionPass(s)
      else CollisionPass(s)
  }

  /**
    The score rises by exactly the row values of the enemies that
    disappeared, however they are listed.
   */
  lemma ScoreCountsDestroyed(s: GameState, killed: seq<Enemy>)
    requires s.status.Running?
    requires multiset(CheckCollisions(s).enemies) + multiset(killed) == multiset(s.enemies)
    ensures CheckCollisions(s).score == s.score + Points(killed)
  {
    var eh := HitEnemies(s.playerBullets, s.enemies);
    var r := CheckCollisions(s);
    assert r.enemies == eh.enemies && r.score == s.score + Points(eh.killed);
    MultisetCancel(multiset(eh.enemies), multiset(killed), multiset(eh.killed));
    PointsOfSameEnemies(killed, eh.killed);
  }

  /**
    A single shot overlapping the last enemy destroys it for that enemy's
    row value, and with no enemy left the run is won whatever the lives and
    the clock say.
   */
  lemma LastEnemyHit(s: GameState, b: Bullet, e: Enemy)
    requires s.status.Running? && s.lives >= 1
    requires s.playerBullets == [b] && s.enemies == [e] && ShotHitsEnemy(b, e)
    requires forall i :: 0 <= i < |s.enemyBullets| ==> !ShotHitsPlayer(s.enemyBullets[i], s.player)
    ensures CheckCollisions(s).score == s.score + PointsForRow(e.row)
    ensures CheckCollisions(s).enemies == [] && CheckCollisions(s).playerBullets == []
    ensures CheckCollisions(s).status == Ended(Win)
  {
    assert FirstHit(b, [e]) == Some(0);
    assert HitEnemies([b], [e]).killed == [e];
    assert Points([e]) == PointsForRow(e.row);
    NoHitsKeepLives(s.enemyBullets, s.player, s.lives);
  }

  /**
    A shot that only touches a top-row enemy along an edge still destroys it:
    20 points, and with no enemy left the run is won.
   */
  lemma EdgeHitOnTopRow(s: GameState, b: Bullet, e: Enemy)
    requires s.status.Running? && s.lives >= 1
    requires s.playerBullets == [b] && s.enemies == [e] && e.row == 0
    requires b.x + BULLET_WIDTH == e.x && b.y == e.y
    requires forall i :: 0 <= i < |s.enemyBullets| ==> !ShotHitsPlayer(s.enemyBullets[i], s.player)
    ensures CheckCollisions(s).score == s.score + 20
    ensures CheckCollisions(s).enemies == []
    ensures CheckCollisions(s).status == Ended(Win)
  {
    assert ShotHitsEnemy(b, e);
    LastEnemyHit(s, b, e);
  }

  /** A shot inside a bottom-row enemy is worth only 5 points. */
  lemma BottomRowHitScoresFive(s: GameState, b: Bullet, e: Enemy)
    requires s.status.Running? && s.lives >= 1
    requires s.playerBullets == [b] && s.enemies == [e] && e.row == 3
    requires b.x == e.x + 1.0 && b.y == e.y + 1.0
    requires forall i :: 0 <= i < |s.enemyBullets| ==> !ShotHitsPlayer(s.enemyBullets[i], s.player)
    ensures CheckCollisions(s).score == s.score + 5
    ensures CheckCollisions(s).status == Ended(Win)
  {
    assert ShotHitsEnemy(b, e);
    LastEnemyHit(s, b, e);
  }

  /**
    An enemy shot that hits the player with two lives left costs one life,
    is removed, and sends the player back to the spawn point; the run goes on
    while enemies are left.
   */
  lemma EnemyShotCostsLife(s: GameState, b: Bullet)
    requires s.status.Running? && s.lives == 2 && s.playerBullets == [] && |s.enemies| > 0
    requires s.enemyBullets == [b] && ShotHitsPlayer(b, s.player)
    ensures CheckCollisions(s).lives == 1
    ensures CheckCollisions(s).enemyBullets == []
    ensures CheckCollisions(s).player == Respawn(s.player)
    ensures CheckCollisions(s).status == Running
  {
    HitRespawnsWithLifeLeft(b, s.player);
    assert HitEnemies([], s.enemies).enemies == s.enemies;
  }

  /** Enemy shots that all miss the player cost no life. */
  lemma {:induction false} NoHitsKeepLives(bs: seq<Bullet>, p: Player, lives: int)
    requires forall i :: 0 <= i < |bs| ==> !ShotHitsPlayer(bs[i], p)
    ensures HitPlayer(bs, p, lives) == PlayerHits(bs, p, lives, false)
    decreases |bs|
  {
    if |bs| > 0 {
      assert !ShotHitsPlayer(bs[0], p);
      assert forall i :: 0 <= i < |bs[1..]| ==> bs[1..][i] == bs[i + 1];
      NoHitsKeepLives(bs[1..], p, lives);
      assert [bs[0]] + bs[1..] == bs;
    }
  }
}

=== FILE: countdown.dfy ===
/**
  `updateTimer`, the once-a-second countdown: it ends the run when the time
  is up and, on every fifth remaining second, makes the game harder until
  four speed-ups have happened.
 */
module Countdown {
  import opened Entities

  const SPEED_UP_EVERY: int := 5

  /** A speed-up adds the delta to the magnitude, keeping the direction (zero turns negative). */
  function SpeedUp(v: real): (r: real)
    ensures Abs(r) == Abs(v) + SPEED_UP_DELTA
    ensures v > 0.0 ==> r > 0.0
    ensures v < 0.0 ==> r < 0.0
  {
    v + (if v > 0.0 then SPEED_UP_DELTA else -SPEED_UP_DELTA)
  }

  /** Every enemy shot in flight falls faster by the delta; positions stay. */
  function HastenShots(bs: seq<Bullet>): (r: seq<Bullet>)
    ensures |r| == |bs|
    ensures forall i :: 0 <= i < |bs| ==> r[i] == bs[i].(vy := bs[i].vy + SPEED_UP_DELTA)
  {
    seq(|bs|, i requires 0 <= i < |bs| => bs[i].(vy := bs[i].vy + SPEED_UP_DELTA))
  }

  /** Shots all falling straight down at one speed all fall at that speed plus the delta afterwards. */
  lemma HastenKeepsShotsAtSpeed(bs: seq<Bullet>, speed: real)
    requires EnemyShotsAtSpeed(bs, speed)
    ensures EnemyShotsAtSpeed(HastenShots(bs), speed + SPEED_UP_DELTA)
  {
  }

  /** The decremented timer hits a speed-up second while speed-ups remain. */
  predicate SpeedUpDue(timer: int, speedUps: nat)
  {
    timer % SPEED_UP_EVERY == 0 && speedUps < MAX_SPEED_UPS
  }

  /**
    One second of the countdown. The timer drops by one; at or below zero the
    run ends with the time-up reason and nothing else changes. Otherwise,
    when a speed-up is due, both formation speeds, the enemy-shot speed and
    every enemy shot in flight gain the delta and the count goes up by one;
    when none is due only the timer changes. An ended run is left alone.
   */
  function UpdateTimer(s: GameState): (r: GameState)
    ensures !s.status.Running? ==> r == s
    ensures s.status.Running? ==> r.timer == s.timer - 1
    ensures s.status.Running? ==> (r.status == Ended(TimeUp) <==> s.timer - 1 <= 0)
    ensures s.status.Running? && s.timer - 1 > 0 ==> r.status == Running
    ensures s.status.Running? && s.timer - 1 > 0 && SpeedUpDue(s.timer - 1, s.speedUps) ==>
      && r.speedUps == s.speedUps + 1
      && r.vx == SpeedUp(s.vx) && r.vy == SpeedUp(s.vy)
      && Abs(r.vx) == Abs(s.vx) + SPEED_UP_DELTA && Abs(r.vy) == Abs(s.vy) + SPEED_UP_DELTA
      && r.enemyBulletSpeed == s.enemyBulletSpeed + SPEED_UP_DELTA
      && |r.enemyBullets| == |s.enemyBullets|
      && (forall i :: 0 <= i < |s.enemyBullets| ==>
            r.enemyBullets[i].vy == s.enemyBullets[i].vy + SPEED_UP_DELTA &&
            r.enemyBullets[i].(vy := 0.0) == s.enemyBullets[i].(vy := 0.0))
    ensures !(s.status.Running? && s.timer - 1 > 0 && SpeedUpDue(s.timer - 1, s.speedUps)) ==>
      r.(timer := s.timer, status := s.status) == s
    ensures r.(timer := s.timer, status := s.status, vx := s.vx, vy := s.vy,
               enemyBulletSpeed := s.enemyBulletSpeed, enemyBullets := s.enemyBullets,
               speedUps := s.speedUps) == s
    ensures s.speedUps <= MAX_SPEED_UPS ==> r.speedUps <= MAX_SPEED_UPS
  {
    if !s.status.Running? then s
    else
      var t := s.timer - 1;
      if t <= 0 then s.(timer := t, status := Ended(TimeUp))
      else if SpeedUpDue(t, s.speedUps) then
        s.(timer := t,
           vx := SpeedUp(s.vx),
           vy := SpeedUp(s.vy),
           enemyBulletSpeed := s.enemyBulletSpeed + SPEED_UP_DELTA,
           enemyBullets := HastenShots(s.enemyBullets),
           speedUps := s.speedUps + 1)
      else s.(timer := t)
  }

  /** With one second left, the next second ends the run on time with the score untouched. */
  lemma LastSecondEndsRun(s: GameState)
    requires s.status.Running? && s.timer == 1
    ensures UpdateTimer(s).status == Ended(TimeUp)
    ensures UpdateTimer(s).score == s.score
  {
  }

  /** Once four speed-ups have happened, the countdown only counts. */
  lemma NoSpeedUpAfterCap(s: GameState)
    requires s.speedUps == MAX_SPEED_UPS
    ensures UpdateTimer(s).vx == s.vx && UpdateTimer(s).vy == s.vy
    ensures UpdateTimer(s).enemyBulletSpeed == s.enemyBulletSpeed
    ensures UpdateTimer(s).speedUps == MAX_SPEED_UPS
  {
  }
}

=== FILE: engine.dfy ===
/**
  The run as a whole: `startGame`'s reset, `updateGame`'s tick, the events
  that drive a run (ticks, countdown seconds and key edges), the one-way
  Running to Ended state machine and `endGame`'s choice of message.
 */
module Engine {
  import opened Text
  import opened Entities
  import opened Input
  import opened Motion
  import opened Collisions
  import opened Countdown

  /** What the configuration screen hands to a new run. */
  datatype Settings = Settings(fireKey: string, minutes: int, color: string)

  /** The arena's `Math.random()` draws are numbers in [0, 1). */
  predicate IsRoll(x: real) { 0.0 <= x < 1.0 }

  /**
    `startGame` as the source writes it: every entity, counter and velocity
    is reset, except the fire cooldown, which is a module-level flag the
    reset does not touch and so carries over from the previous run.
    `signRoll` picks the formation's direction, `startRoll` the ship's
    column, and `now` is the start time stamp.
   */
  function StartGameAsWritten(settings: Settings, a: Arena, now: int, signRoll: real, startRoll: real,
                              carriedCooldown: bool): (r: GameState)
    requires IsRoll(signRoll) && IsRoll(startRoll)
    ensures r.fireCooldown == carriedCooldown
    ensures r.status == Running && r.score == 0 && r.lives == START_LIVES && r.speedUps == 0
    ensures r.timer == settings.minutes * 60 && r.startTime == now && r.fireKey == settings.fireKey
    ensures r.enemies == CreateEnemies() && r.playerBullets == [] && r.enemyBullets == []
    ensures Abs(r.vx) == START_FORMATION_SPEED && r.vy == r.vx
    ensures r.enemyBulletSpeed == START_ENEMY_BULLET_SPEED
    ensures r.player.x == r.player.spawnX && r.player.y == r.player.spawnY
    ensures !r.player.left && !r.player.right && !r.player.up && !r.player.down
    ensures r.player.color == settings.color
    ensures r.arena == a && r.player.spawnY == a.height - SHIP_SIZE
    ensures r.player.spawnX == SpawnColumn(startRoll, a)
  {
    var v := START_FORMATION_SPEED * (if signRoll < 0.5 then -1.0 else 1.0);
    var startX := SpawnColumn(startRoll, a);
    var startY := a.height - SHIP_SIZE;
    GameState(
      a, settings.fireKey,
      Player(startX, startY, settings.color, startX, startY, false, false, false, false),
      CreateEnemies(), [], [],
      0, START_LIVES, settings.minutes * 60, now,
      v, v, START_ENEMY_BULLET_SPEED, 0, carriedCooldown, Running)
  }

  /** The ship's start column, `Math.random() * (width - 24)`: inside the arena. */
  function SpawnColumn(roll: real, a: Arena): (x: real)
    requires IsRoll(roll)
    ensures ValidArena(a) ==> 0.0 <= x <= a.width - SHIP_SIZE
  {
    var span := a.width - SHIP_SIZE;
    ScaleWithin(roll, span);
    var x := roll * span;
    assert span >= 0.0 ==> 0.0 <= x <= span;
    x
  }

  /** A roll in [0, 1) scales a non-negative span to a point inside it. */
  lemma ScaleWithin(roll: real, span: real)
    requires IsRoll(roll)
    ensures span >= 0.0 ==> 0.0 <= roll * span <= span
  {
    if span >= 0.0 {
      assert roll * span <= 1.0 * span;
    }
  }

  /**
    `startGame` with the reset extended to the fire cooldown: it starts
    cleared too, so the new run depends on nothing left from an earlier one.
   */
  function StartGame(settings: Settings, a: Arena, now: int, signRoll: real, startRoll: real): (r: GameState)
    requires IsRoll(signRoll) && IsRoll(startRoll)
    ensures !r.fireCooldown
    ensures r.status == Running && r.score == 0 && r.lives == START_LIVES && r.speedUps == 0
    ensures r.timer == settings.minutes * 60 && r.startTime == now && r.fireKey == settings.fireKey
    ensures r.enemies == CreateEnemies() && r.playerBullets == [] && r.enemyBullets == []
    ensures Abs(r.vx) == START_FORMATION_SPEED && r.vy == r.vx
    ensures r.enemyBulletSpeed == START_ENEMY_BULLET_SPEED
    ensures r.player.x == r.player.spawnX && r.player.y == r.player.spawnY
    ensures !r.player.left && !r.player.right && !r.player.up && !r.player.down
    ensures r.player.color == settings.color
    ensures r.arena == a && r.player.spawnY == a.height - SHIP_SIZE
    ensures r.player.spawnX == SpawnColumn(startRoll, a)
    ensures ValidArena(a) ==> Valid(r)
  {
    var r := StartGameAsWritten(settings, a, now, signRoll, startRoll, false);
    StartKeepsValid(r, a);
    r
  }

  /** Any fresh start in a valid arena satisfies the invariant. */
  lemma StartKeepsValid(r: GameState, a: Arena)
    requires r.arena == a && r.status == Running && r.lives == START_LIVES && r.speedUps == 0
    requires r.enemyBullets == [] && Abs(r.vx) == START_FORMATION_SPEED && Abs(r.vy) == START_FORMATION_SPEED
    requires r.enemyBulletSpeed == START_ENEMY_BULLET_SPEED
    requires r.player.x == r.player.spawnX && r.player.y == r.player.spawnY
    requires r.player.spawnY == a.height - SHIP_SIZE
    requires ValidArena(a) ==> 0.0 <= r.player.spawnX <= a.width - SHIP_SIZE
    ensures ValidArena(a) ==> Valid(r)
  {
  }

  /**
    A run that ended while the fire key was held keeps its cooldown set: the
    release arrives after the key listeners are gone. A restart as written
    then swallows the first press of the fire key.
   */
  lemma StaleCooldownSwallowsFirstShot(ended: GameState, settings: Settings, a: Arena, now: int,
                                       signRoll: real, startRoll: real)
    requires ended.status.Ended? && ended.fireCooldown
    requires IsRoll(signRoll) && IsRoll(startRoll)
    ensures var released := KeyUp(ended, ended.fireKey);
      var s := StartGameAsWritten(settings, a, now, signRoll, startRoll, released.fireCooldown);
      |KeyDown(s, settings.fireKey).playerBullets| == 0
  {
    var released := KeyUp(ended, ended.fireKey);
    assert released.fireCooldown;
  }

  /** With the corrected reset the first press of the fire key shoots. */
  lemma FreshStartFiresFirstShot(settings: Settings, a: Arena, now: int, signRoll: real, startRoll: real)
    requires IsRoll(signRoll) && IsRoll(startRoll)
    ensures |KeyDown(StartGame(settings, a, now, signRoll, startRoll), settings.fireKey).playerBullets| == 1
  {
    var s := StartGame(settings, a, now, signRoll, startRoll);
    assert IsFireKey(s, settings.fireKey);
  }

  /**
    Everything `updateGame` does before the collision pass: the player's
    guarded steps, the formation's bounce and move, the enemies' chance to
    fire (`fireRoll` is the 2% draw, `pickRoll` the choice of enemy), and the
    advance and culling of both bullet lists.
   */
  function MoveAll(s: GameState, fireRoll: real, pickRoll: real): (r: GameState)
    requires IsRoll(fireRoll) && IsRoll(pickRoll)
    ensures r.player == MovePlayer(s.player, s.arena)
    ensures r.enemies == MoveFormation(s.enemies, s.vx, s.vy, s.arena).enemies
    ensures var f := MoveFormation(s.enemies, s.vx, s.vy, s.arena);
      r.vx == f.vx && r.vy == f.vy
    ensures Abs(r.vx) == Abs(s.vx) && Abs(r.vy) == Abs(s.vy)
    ensures r.playerBullets == CullPlayerShots(Advance(s.playerBullets), s.arena)
    ensures multiset(r.playerBullets) <= multiset(Advance(s.playerBullets))
    ensures |r.enemyBullets| <= |s.enemyBullets| + 1
    ensures fireRoll >= FIRE_CHANCE ==> r.enemyBullets == CullEnemyShots(Advance(s.enemyBullets), s.arena)
    ensures fireRoll < FIRE_CHANCE ==>
      var fired := EnemyFire(r.enemies, s.enemyBullets, s.arena, s.enemyBulletSpeed, pickRoll);
      r.enemyBullets == CullEnemyShots(Advance(fired), s.arena)
    ensures EnemyShotsAtSpeed(s.enemyBullets, s.enemyBulletSpeed) ==> EnemyShotsAtSpeed(r.enemyBullets, s.enemyBulletSpeed)
    ensures r.(player := s.player, enemies := s.enemies, vx := s.vx, vy := s.vy,
               playerBullets := s.playerBullets, enemyBullets := s.enemyBullets) == s
  {
    var f := MoveFormation(s.enemies, s.vx, s.vy, s.arena);
    var fired :=
      if fireRoll < FIRE_CHANCE then EnemyFire(f.enemies, s.enemyBullets, s.arena, s.enemyBulletSpeed, pickRoll)
      else s.enemyBullets;
    var eb := CullEnemyShots(Advance(fired), s.arena);
    ShotsAtSpeedAdvance(fired, s.enemyBulletSpeed);
    ShotsAtSpeedSubset(Advance(fired), eb, s.enemyBulletSpeed);
    s.(player := MovePlayer(s.player, s.arena),
       enemies := f.enemies, vx := f.vx, vy := f.vy,
       playerBullets := CullPlayerShots(Advance(s.playerBullets), s.arena),
       enemyBullets := eb)
  }

  lemma ShotsAtSpeedAdvance(bs: seq<Bullet>, speed: real)
    ensures EnemyShotsAtSpeed(bs, speed) ==> EnemyShotsAtSpeed(Advance(bs), speed)
  {
  }

  /** Any sub-multiset of straight-down shots at a speed is straight-down at that speed too. */
  lemma ShotsAtSpeedSubset(bs: seq<Bullet>, r: seq<Bullet>, speed: real)
    requires multiset(r) <= multiset(bs)
    ensures EnemyShotsAtSpeed(bs, speed) ==> EnemyShotsAtSpeed(r, speed)
  {
    if EnemyShotsAtSpeed(bs, speed) {
      forall i | 0 <= i < |r|
        ensures r[i].vx == 0.0 && r[i].vy == speed
      {
        assert r[i] in multiset(r);
        assert r[i] in bs;
      }
    }
  }

  /**
    `updateGame`: one tick of a running game, the movement phase followed by
    the collision pass. The score never drops, the lives never rise and the
    grid never grows; the formation keeps its speed; the countdown, the
    speed-ups, the shot speed and the key state are not touched. A run with
    lives left is lost exactly when they run out, and otherwise won exactly
    when no enemy is left. An ended run is left alone.
   */
  function UpdateGame(s: GameState, fireRoll: real, pickRoll: real): (r: GameState)
    requires IsRoll(fireRoll) && IsRoll(pickRoll)
    ensures !s.status.Running? ==> r == s
    ensures r.score >= s.score && r.lives <= s.lives && |r.enemies| <= |s.enemies|
    ensures Abs(r.vx) == Abs(s.vx) && Abs(r.vy) == Abs(s.vy)
    ensures r.timer == s.timer && r.speedUps == s.speedUps && r.enemyBulletSpeed == s.enemyBulletSpeed
    ensures r.arena == s.arena && r.fireKey == s.fireKey && r.fireCooldown == s.fireCooldown
    ensures r.startTime == s.startTime
    ensures s.status.Running? && s.lives >= 1 ==>
      && (r.status == Ended(Lost) <==> r.lives == 0)
      && (r.status == Ended(Win) <==> r.lives > 0 && |r.enemies| == 0)
  {
    if !s.status.Running? then s else CheckCollisions(MoveAll(s, fireRoll, pickRoll))
  }

  /**
    A tick keeps the invariant, never lowers the score or raises the lives,
    and leaves the speed-up count, the timer and the shot speed alone.
   */
  lemma UpdateGameKeepsValid(s: GameState, fireRoll: real, pickRoll: real)
    requires Valid(s) && IsRoll(fireRoll) && IsRoll(pickRoll)
    ensures var r := UpdateGame(s, fireRoll, pickRoll);
      && Valid(r)
      && r.score >= s.score && r.lives <= s.lives
      && r.speedUps == s.speedUps && r.timer == s.timer
  {
    if s.status.Running? {
      var m := MoveAll(s, fireRoll, pickRoll);
      assert Valid(m);
      var r := CheckCollisions(m);
      ShotsAtSpeedSubset(m.enemyBullets, r.enemyBullets, m.enemyBulletSpeed);
      assert InPlayerZone(Respawn(m.player), m.arena);
      assert InPlayerZone(r.player, r.arena);
    }
  }

  /** The events that drive a run. */
  datatype Event =
    | Tick(fireRoll: real, pickRoll: real)
    | Second
    | KeyPress(key: string)
    | KeyRelease(key: string)

  predicate WellFormed(e: Event)
  {
    e.Tick? ==> IsRoll(e.fireRoll) && IsRoll(e.pickRoll)
  }

  function Step(s: GameState, e: Event): GameState
    requires WellFormed(e)
  {
    match e
    case Tick(fr, pr) => UpdateGame(s, fr, pr)
    case Second => UpdateTimer(s)
    case KeyPress(k) => KeyDown(s, k)
    case KeyRelease(k) => KeyUp(s, k)
  }

  /** Every event keeps the invariant; score, lives and speed-ups move one way only. */
  lemma StepKeepsValid(s: GameState, e: Event)
    requires Valid(s) && WellFormed(e)
    ensures var r := Step(s, e);
      && Valid(r)
      && r.score >= s.score && r.lives <= s.lives && r.speedUps >= s.speedUps
      && (s.status.Ended? ==> r == s)
  {
    match e
    case Tick(fr, pr) => UpdateGameKeepsValid(s, fr, pr);
    case Second =>
      var r := UpdateTimer(s);
      if s.status.Running? && s.timer - 1 > 0 && SpeedUpDue(s.timer - 1, s.speedUps) {
        assert EnemyShotsAtSpeed(r.enemyBullets, r.enemyBulletSpeed);
      }
    case KeyPress(k) =>
    case KeyRelease(k) =>
  }

  function Run(s: GameState, events: seq<Event>): GameState
    requires forall i :: 0 <= i < |events| ==> WellFormed(events[i])
    decreases |events|
  {
    if |events| == 0 then s else Run(Step(s, events[0]), events[1..])
  }

  /**
    Over any sequence of events the invariant holds throughout: at most four
    speed-ups, lives in 0..3, the player in its zone. The score never drops,
    the lives never rise and the speed-up count never falls.
   */
  lemma {:induction false} RunKeepsValid(s: GameState, events: seq<Event>)
    requires Valid(s)
    requires forall i :: 0 <= i < |events| ==> WellFormed(events[i])
    ensures var r := Run(s, events);
      && Valid(r) && r.speedUps <= MAX_SPEED_UPS
      && r.score >= s.score && r.lives <= s.lives && r.speedUps >= s.speedUps
    decreases |events|
  {
    if |events| > 0 {
      StepKeepsValid(s, events[0]);
      RunKeepsValid(Step(s, events[0]), events[1..]);
    }
  }

  /** Ended is final: no event changes an ended run. */
  lemma {:induction false} EndedIsFinal(s: GameState, events: seq<Event>)
    requires s.status.Ended?
    requires forall i :: 0 <= i < |events| ==> WellFormed(events[i])
    ensures Run(s, events) == s
    decreases |events|
  {
    if |events| > 0 {
      var e := events[0];
      assert Step(s, e) == s by {
        match e
        case Tick(fr, pr) =>
        case Second =>
        case KeyPress(k) =>
        case KeyRelease(k) =>
      }
      EndedIsFinal(s, events[1..]);
    }
  }

  const CHAMPION: string := "Champion!"
  const YOU_LOST: string := "You Lost!"
  const WINNER_PREFIX: string := "Winner! Score: "
  const DO_BETTER_PREFIX: string := "You can do better! Score: "
  /** A time-up run with at least this score earns the "Winner!" message. */
  const WINNER_SCORE: nat := 100

  /**
    `endGame`'s message: a fixed text for a win or a loss; when the time ran
    out, one of two prefixes by the score threshold, followed by the score
    written in canonical decimal (no leading zero).
   */
  function EndMessage(reason: Reason, score: nat): (msg: string)
    ensures reason == Win ==> msg == CHAMPION
    ensures reason == Lost ==> msg == YOU_LOST
    ensures reason == TimeUp ==>
      var prefix := if score >= WINNER_SCORE then WINNER_PREFIX else DO_BETTER_PREFIX;
      && |msg| > |prefix| && msg[..|prefix|] == prefix
      && (forall i :: |prefix| <= i < |msg| ==> IsAsciiDigit(msg[i]))
      && ParseDecimal(msg[|prefix|..]) == score
      && (|msg| > |prefix| + 1 ==> msg[|prefix|] != '0')
  {
    match reason
    case Win => CHAMPION
    case Lost => YOU_LOST
    case TimeUp =>
      var prefix := if score >= WINNER_SCORE then WINNER_PREFIX else DO_BETTER_PREFIX;
      var msg := prefix + Decimal(score);
      assert msg[|prefix|..] == Decimal(score);
      assert |msg| > |prefix| + 1 ==> msg[|prefix|] == Decimal(score)[0];
      DecimalRoundTrip(score);
      msg
  }
}

=== FILE: entities.dfy ===
/**
  The game's entities and its one state record: the player ship, the enemy
  grid, the two bullet lists and the run counters, with the constants of
  game.js and the invariant every reachable state keeps.
 */
module Entities {
  import opened Geometry

  const SHIP_SIZE: real := 24.0
  const H_SPACING: real := SHIP_SIZE * 2.5
  const V_SPACING: real := SHIP_SIZE * 1.5
  /** Enemies bounce inside the top 40% of the arena. */
  const TOP_LIMIT: real := 0.4
  /** The player moves inside the bottom 40%: below 60% of the height. */
  const PLAYER_ZONE: real := 0.6
  const PLAYER_STEP: real := 5.0
  const BULLET_WIDTH: real := 6.0
  const BULLET_HEIGHT: real := 10.0
  const GRID_ROWS: nat := 4
  const GRID_COLUMNS: nat := 5
  const GRID_LEFT: real := 100.0
  const GRID_TOP: real := 50.0
  const START_LIVES: int := 3
  const MAX_SPEED_UPS: nat := 4
  const SPEED_UP_DELTA: real := 20.0
  const START_FORMATION_SPEED: real := 50.0
  const START_ENEMY_BULLET_SPEED: real := 200.0

  /** An enemy's row in the grid; it selects the enemy's colour and value. */
  type Row = r: nat | r < 4

  datatype Arena = Arena(width: real, height: real)

  datatype Player = Player(
    x: real, y: real, color: string,
    spawnX: real, spawnY: real,
    left: bool, right: bool, up: bool, down: bool)

  datatype Enemy = Enemy(x: real, y: real, row: Row)

  /** Player and enemy shots share one shape, 6 wide and 10 high. */
  datatype Bullet = Bullet(x: real, y: real, vx: real, vy: real)

  datatype Reason = Win | Lost | TimeUp

  /** A run is Running until one of the three end conditions fires; Ended is final. */
  datatype Status = Running | Ended(reason: Reason)

  datatype GameState = GameState(
    arena: Arena,
    fireKey: string,
    player: Player,
    enemies: seq<Enemy>,
    playerBullets: seq<Bullet>,
    enemyBullets: seq<Bullet>,
    score: nat,
    lives: int,
    timer: int,
    startTime: int,
    vx: real,
    vy: real,
    enemyBulletSpeed: real,
    speedUps: nat,
    fireCooldown: bool,
    status: Status)

  function PlayerRect(p: Player): Rect { Rect(p.x, p.y, SHIP_SIZE, SHIP_SIZE) }

  function EnemyRect(e: Enemy): Rect { Rect(e.x, e.y, SHIP_SIZE, SHIP_SIZE) }

  function BulletRect(b: Bullet): Rect { Rect(b.x, b.y, BULLET_WIDTH, BULLET_HEIGHT) }

  function Abs(x: real): real { if x < 0.0 then -x else x }

  /** Points for shooting an enemy of the given row, the table `[20,15,10,5]`. */
  function PointsForRow(row: Row): nat
  {
    [20, 15, 10, 5][row]
  }

  /** Higher rows are worth strictly more, from 20 at the top to 5 at the bottom. */
  lemma PointsForRowDecrease(r1: Row, r2: Row)
    requires r1 < r2
    ensures PointsForRow(r1) > PointsForRow(r2)
    ensures 5 <= PointsForRow(r2) && PointsForRow(r1) <= 20
  {
  }

  /** The enemy created in grid row r, column c. */
  function GridCell(r: Row, c: nat): Enemy
    requires c < GRID_COLUMNS
  {
    Enemy(GRID_LEFT + c as real * H_SPACING, GRID_TOP + r as real * V_SPACING, r)
  }

  function GridRow(r: Row): (row: seq<Enemy>)
    ensures |row| == GRID_COLUMNS
    ensures forall c :: 0 <= c < GRID_COLUMNS ==> row[c] == GridCell(r, c)
  {
    seq(GRID_COLUMNS, c requires 0 <= c < GRID_COLUMNS => GridCell(r, c))
  }

  /** Quotient and remainder by the row length, one row further on. */
  lemma DivByColumns(k: nat)
    ensures k < 5 ==> k / 5 == 0 && k % 5 == k
    ensures k >= 5 ==> (k - 5) / 5 + 1 == k / 5 && (k - 5) % 5 == k % 5
  {
  }

  /** Rows r..3 of the grid, row after row, as the nested loops push them. */
  function GridFrom(r: nat): (es: seq<Enemy>)
    requires r <= GRID_ROWS
    ensures |es| == GRID_COLUMNS * (GRID_ROWS - r)
    ensures forall k :: 0 <= k < |es| ==> r + k / 5 < 4 && es[k] == GridCell(r + k / 5, k % 5)
    decreases GRID_ROWS - r
  {
    if r == GRID_ROWS then []
    else
      var rest := GridFrom(r + 1);
      var es := GridRow(r) + rest;
      assert forall k :: 0 <= k < |es| ==> r + k / 5 < 4 && es[k] == GridCell(r + k / 5, k % 5) by {
        forall k | 0 <= k < |es|
          ensures r + k / 5 < 4 && es[k] == GridCell(r + k / 5, k % 5)
        {
          DivByColumns(k);
          if k >= 5 {
            assert es[k] == rest[k - 5];
          }
        }
      }
      es
  }

  /**
    `createEnemies`: the fixed 4 x 5 grid, row-major; the k-th enemy is in
    row k / 5 and column k % 5, at (100 + 60 column, 50 + 36 row).
   */
  function CreateEnemies(): (es: seq<Enemy>)
    ensures |es| == GRID_ROWS * GRID_COLUMNS
    ensures forall k :: 0 <= k < |es| ==>
      && es[k].row == k / 5
      && es[k].x == 100.0 + 60.0 * (k % 5) as real
      && es[k].y == 50.0 + 36.0 * (k / 5) as real
  {
    GridFrom(0)
  }

  /** Every row of the grid holds exactly its five enemies, in column order. */
  lemma GridRowsHoldFive(r: Row)
    ensures CreateEnemies()[5 * r .. 5 * r + 5] == GridRow(r)
  {
    var es := CreateEnemies();
    forall c | 0 <= c < 5
      ensures es[5 * r .. 5 * r + 5][c] == GridRow(r)[c]
    {
      var k := 5 * r + c;
      assert k / 5 == r && k % 5 == c;
      assert es[k] == GridCell(r, c);
    }
  }

  /** No two enemies of the fresh grid overlap: columns and rows leave gaps. */
  lemma GridIsDisjoint(i: nat, j: nat)
    requires i < j < GRID_ROWS * GRID_COLUMNS
    ensures !Intersects(EnemyRect(CreateEnemies()[i]), EnemyRect(CreateEnemies()[j]))
  {
    var es := CreateEnemies();
    assert es[i].row == i / 5 && es[j].row == j / 5;
    if i / 5 == j / 5 {
      assert i % 5 < j % 5;
      assert es[i].x + SHIP_SIZE < es[j].x;
    } else {
      assert i / 5 < j / 5;
      assert es[i].y + SHIP_SIZE < es[j].y;
    }
  }

  function FormationSpeed(speedUps: nat): real
  {
    START_FORMATION_SPEED + SPEED_UP_DELTA * speedUps as real
  }

  function EnemyBulletSpeedAfter(speedUps: nat): real
  {
    START_ENEMY_BULLET_SPEED + SPEED_UP_DELTA * speedUps as real
  }

  predicate ValidArena(a: Arena)
  {
    a.width >= SHIP_SIZE && a.height >= 2.0 * SHIP_SIZE
  }

  /** The respawn point: inside the arena horizontally, resting on the bottom edge. */
  predicate SpawnInArena(p: Player, a: Arena)
  {
    0.0 <= p.spawnX && p.spawnX + SHIP_SIZE <= a.width && p.spawnY == a.height - SHIP_SIZE
  }

  /**
    The player's box, with the slack of one step the guarded moves allow: it
    overshoots no edge of the arena, nor the top of the player zone, by a
    full step or more.
   */
  predicate InPlayerZone(p: Player, a: Arena)
  {
    && -PLAYER_STEP < p.x && p.x + SHIP_SIZE < a.width + PLAYER_STEP
    && a.height * PLAYER_ZONE - PLAYER_STEP < p.y && p.y + SHIP_SIZE < a.height + PLAYER_STEP
  }

  predicate EnemyShotsAtSpeed(bs: seq<Bullet>, speed: real)
  {
    forall i :: 0 <= i < |bs| ==> bs[i].vx == 0.0 && bs[i].vy == speed
  }

  /**
    What every state of a run keeps: the speed-up count is capped, the
    formation's speed and the enemy-shot speed are fixed by that count (every
    enemy shot in flight moves straight down at the current shot speed),
    lives stay in 0..3 and are positive while running, and the player stays
    in its zone with a respawn point inside the arena.
   */
  predicate Valid(s: GameState)
  {
    && ValidArena(s.arena)
    && s.speedUps <= MAX_SPEED_UPS
    && Abs(s.vx) == FormationSpeed(s.speedUps)
    && Abs(s.vy) == FormationSpeed(s.speedUps)
    && s.enemyBulletSpeed == EnemyBulletSpeedAfter(s.speedUps)
    && EnemyShotsAtSpeed(s.enemyBullets, s.enemyBulletSpeed)
    && 0 <= s.lives <= START_LIVES
    && (s.status.Running? ==> s.lives >= 1)
    && SpawnInArena(s.player, s.arena)
    && InPlayerZone(s.player, s.arena)
  }
}

=== FILE: geometry.dfy ===
/** Axis-aligned rectangles and the overlap test used for every hit in the game. */
module Geometry {

  datatype Rect = Rect(x: real, y: real, width: real, height: real)

  /**
    Two rectangles intersect unless one lies strictly left of, right of,
    above or below the other; rectangles that only share an edge or a
    corner therefore intersect.
   */
  predicate Intersects(a: Rect, b: Rect)
  {
    !(a.x > b.x + b.width || a.x + a.width < b.x ||
      a.y > b.y + b.height || a.y + a.height < b.y)
  }

  /** The point (px, py) lies in the closed rectangle r. */
  predicate Contains(r: Rect, px: real, py: real)
  {
    r.x <= px <= r.x + r.width && r.y <= py <= r.y + r.height
  }

  lemma IntersectsSymmetric(a: Rect, b: Rect)
    ensures Intersects(a, b) <==> Intersects(b, a)
  {
  }

  /**
    For rectangles of non-negative size the test is exactly "the two closed
    rectangles have a point in common".
   */
  lemma IntersectsIffCommonPoint(a: Rect, b: Rect)
    requires a.width >= 0.0 && a.height >= 0.0 && b.width >= 0.0 && b.height >= 0.0
    ensures Intersects(a, b) <==> exists px, py :: Contains(a, px, py) && Contains(b, px, py)
  {
    if Intersects(a, b) {
      var px := if a.x >= b.x then a.x else b.x;
      var py := if a.y >= b.y then a.y else b.y;
      assert Contains(a, px, py) && Contains(b, px, py);
    }
  }

  /** Rectangles that touch only along a vertical edge still intersect. */
  lemma SharedEdgeIntersects(a: Rect, b: Rect)
    requires a.width >= 0.0 && a.height >= 0.0 && b.width >= 0.0 && b.height >= 0.0
    requires b.x == a.x + a.width && b.y == a.y
    ensures Intersects(a, b)
  {
  }

  /** Rectangles that touch only at a corner still intersect. */
  lemma SharedCornerIntersects(a: Rect, b: Rect)
    requires a.width >= 0.0 && a.height >= 0.0
    requires b.x == a.x + a.width && b.y == a.y + a.height
    requires b.width >= 0.0 && b.height >= 0.0
    ensures Intersects(a, b)
  {
  }

  /** A gap of any positive width between them means no hit. */
  lemma SeparatedDoNotIntersect(a: Rect, b: Rect, gap: real)
    requires gap > 0.0 && b.x == a.x + a.width + gap
    ensures !Intersects(a, b)
  {
  }
}

=== FILE: input.dfy ===
/**
  Key edges and the player's shot: `handleKeyDown`, `handleKeyUp` and
  `fireBullet`. The fire key matches case-insensitively; the cooldown flag
  makes a held fire key shoot once per press.
 */
module Input {
  import opened Geometry
  import opened Text
  import opened Entities

  const SHOT_SPEED: real := 300.0
  const SIN25: real := 0.4226
  const COS25: real := 0.9063

  const ARROW_LEFT: string := "ArrowLeft"
  const ARROW_RIGHT: string := "ArrowRight"
  const ARROW_UP: string := "ArrowUp"
  const ARROW_DOWN: string := "ArrowDown"

  /** The velocity of a player shot given the held left/right flags. */
  function ShotVelocity(left: bool, right: bool): (v: (real, real))
  {
    if left != right then ((if left then -1.0 else 1.0) * SHOT_SPEED * SIN25, -SHOT_SPEED * COS25)
    else (0.0, -SHOT_SPEED)
  }

  /**
    A shot goes straight up at full speed unless exactly one of left/right is
    held; then it leans about 25 degrees toward the held side. It always
    climbs, and the two diagonals mirror each other.
   */
  lemma ShotDirection(left: bool, right: bool)
    ensures left == right ==> ShotVelocity(left, right) == (0.0, -300.0)
    ensures left && !right ==> ShotVelocity(left, right) == (-126.78, -271.89)
    ensures !left && right ==> ShotVelocity(left, right) == (126.78, -271.89)
    ensures ShotVelocity(left, right).1 < 0.0
    ensures ShotVelocity(true, false).0 == -ShotVelocity(false, true).0
    ensures ShotVelocity(true, false).1 == ShotVelocity(false, true).1
  {
  }

  /** The shot leaves the ship's nose: centred on the ship, at its top edge. */
  function ShotFrom(p: Player): (b: Bullet)
    ensures b.x + BULLET_WIDTH / 2.0 == p.x + SHIP_SIZE / 2.0 && b.y == p.y
    ensures (b.vx, b.vy) == ShotVelocity(p.left, p.right)
  {
    var v := ShotVelocity(p.left, p.right);
    Bullet(p.x + SHIP_SIZE / 2.0 - 3.0, p.y, v.0, v.1)
  }

  /** `fireBullet`: appends exactly one shot and changes nothing else. */
  function FireBullet(s: GameState): (r: GameState)
    ensures |r.playerBullets| == |s.playerBullets| + 1
    ensures r.playerBullets[..|s.playerBullets|] == s.playerBullets
    ensures r.playerBullets[|s.playerBullets|] == ShotFrom(s.player)
    ensures r.(playerBullets := s.playerBullets) == s
  {
    s.(playerBullets := s.playerBullets + [ShotFrom(s.player)])
  }

  predicate IsFireKey(s: GameState, key: string)
  {
    SameIgnoringCase(key, s.fireKey)
  }

  /**
    `handleKeyDown`: a matching fire key shoots when not on cooldown and sets
    the cooldown; an arrow key sets its own movement flag. The shot is aimed
    with the flags as they were before this key.
   */
  function KeyDown(s: GameState, key: string): (r: GameState)
    ensures !s.status.Running? ==> r == s
    ensures s.status.Running? ==>
      |r.playerBullets| == |s.playerBullets| + (if IsFireKey(s, key) && !s.fireCooldown then 1 else 0)
    ensures s.status.Running? ==>
      r.playerBullets ==
        if IsFireKey(s, key) && !s.fireCooldown then s.playerBullets + [ShotFrom(s.player)] else s.playerBullets
    ensures s.status.Running? ==> r.fireCooldown == (s.fireCooldown || IsFireKey(s, key))
    ensures s.status.Running? && IsFireKey(s, key) ==> r.fireCooldown
    ensures r.player.left == (s.player.left || (s.status.Running? && key == ARROW_LEFT))
    ensures r.player.right == (s.player.right || (s.status.Running? && key == ARROW_RIGHT))
    ensures r.player.up == (s.player.up || (s.status.Running? && key == ARROW_UP))
    ensures r.player.down == (s.player.down || (s.status.Running? && key == ARROW_DOWN))
    ensures r.player.(left := s.player.left, right := s.player.right, up := s.player.up, down := s.player.down) == s.player
    ensures r.(playerBullets := s.playerBullets, fireCooldown := s.fireCooldown, player := s.player) == s
  {
    if !s.status.Running? then s
    else
      var fired := if IsFireKey(s, key) && !s.fireCooldown then FireBullet(s).(fireCooldown := true) else s;
      var p := fired.player;
      fired.(player := p.(left := p.left || key == ARROW_LEFT,
                          right := p.right || key == ARROW_RIGHT,
                          up := p.up || key == ARROW_UP,
                          down := p.down || key == ARROW_DOWN))
  }

  /**
    `handleKeyUp`: releasing the fire key clears the cooldown; releasing an
    arrow key clears only its own flag.
   */
  function KeyUp(s: GameState, key: string): (r: GameState)
    ensures !s.status.Running? ==> r == s
    ensures s.status.Running? ==> r.fireCooldown == (s.fireCooldown && !IsFireKey(s, key))
    ensures r.player.left == (s.player.left && !(s.status.Running? && key == ARROW_LEFT))
    ensures r.player.right == (s.player.right && !(s.status.Running? && key == ARROW_RIGHT))
    ensures r.player.up == (s.player.up && !(s.status.Running? && key == ARROW_UP))
    ensures r.player.down == (s.player.down && !(s.status.Running? && key == ARROW_DOWN))
    ensures r.player.(left := s.player.left, right := s.player.right, up := s.player.up, down := s.player.down) == s.player
    ensures r.(fireCooldown := s.fireCooldown, player := s.player) == s
  {
    if !s.status.Running? then s
    else
      var cooled := if IsFireKey(s, key) then s.(fireCooldown := false) else s;
      var p := cooled.player;
      cooled.(player := p.(left := p.left && key != ARROW_LEFT,
                           right := p.right && key != ARROW_RIGHT,
                           up := p.up && key != ARROW_UP,
                           down := p.down && key != ARROW_DOWN))
  }

  /** Holding the fire key down shoots once: a repeated key-down adds no shot. */
  lemma HeldFireKeyFiresOnce(s: GameState, key: string)
    requires s.status.Running? && IsFireKey(s, key)
    ensures |KeyDown(KeyDown(s, key), key).playerBullets| == |KeyDown(s, key).playerBullets|
  {
    var s1 := KeyDown(s, key);
    assert s1.fireKey == s.fireKey && s1.status == s.status;
  }

  /** Releasing the fire key re-arms it: the next press shoots exactly one shot. */
  lemma ReleaseRearmsFire(s: GameState, key: string)
    requires s.status.Running? && IsFireKey(s, key)
    ensures var s2 := KeyUp(KeyDown(s, key), key);
      |KeyDown(s2, key).playerBullets| == |s2.playerBullets| + 1
  {
    var s1 := KeyDown(s, key);
    assert s1.fireKey == s.fireKey && s1.status == s.status;
    var s2 := KeyUp(s1, key);
    assert s2.fireKey == s.fireKey && s2.status == s.status && !s2.fireCooldown;
  }

  /** Movement flags are not exclusive: left and right may both be held, and a shot then goes straight up. */
  lemma OpposingFlagsCoexist(s: GameState)
    requires s.status.Running? && !IsFireKey(s, ARROW_LEFT) && !IsFireKey(s, ARROW_RIGHT)
    ensures var s2 := KeyDown(KeyDown(s, ARROW_LEFT), ARROW_RIGHT);
      s2.player.left && s2.player.right && ShotFrom(s2.player).vx == 0.0
  {
    var s1 := KeyDown(s, ARROW_LEFT);
    assert s1.status == s.status && s1.fireKey == s.fireKey;
  }
}

=== FILE: motion.dfy ===
/**
  The movement half of `updateGame`: the guarded player steps, the bouncing
  enemy formation, the enemies' gated fire and the advance and culling of
  both bullet lists. Every velocity is in units per second and a tick moves
  by a fiftieth of it.
 */
module Motion {
  import opened Entities

  const TICK_DIVISOR: real := 50.0
  /** Chance per tick that the enemies try to fire (`Math.random() < .02`). */
  const FIRE_CHANCE: real := 0.02
  /** A new enemy shot waits until the last one has fallen below 75% of the height. */
  const FIRE_GATE: real := 0.75
  /** Bullets are dropped ten units beyond the arena. */
  const CULL_MARGIN: real := 10.0

  /**
    One guarded step along an axis: back by a step when the back flag is held
    and the ship is past `low`, then forward by a step when the forward flag
    is held and the ship's far edge is short of `high`.
   */
  function StepAxis(pos: real, back: bool, fwd: bool, low: real, high: real): (r: real)
    ensures r == pos - PLAYER_STEP || r == pos || r == pos + PLAYER_STEP
    ensures r < pos ==> back && pos > low
    ensures r > pos ==> fwd && pos + SHIP_SIZE < high
    ensures !back && !fwd ==> r == pos
    ensures back && !fwd && pos > low ==> r == pos - PLAYER_STEP
    ensures !back && fwd && pos + SHIP_SIZE < high ==> r == pos + PLAYER_STEP
    ensures back && fwd && pos > low && pos - PLAYER_STEP + SHIP_SIZE < high ==> r == pos
    ensures back && fwd && pos > low && pos - PLAYER_STEP + SHIP_SIZE >= high ==> r == pos - PLAYER_STEP
    ensures back && fwd && pos <= low && pos + SHIP_SIZE < high ==> r == pos + PLAYER_STEP
    ensures low - PLAYER_STEP < pos && pos + SHIP_SIZE < high + PLAYER_STEP ==>
      low - PLAYER_STEP < r && r + SHIP_SIZE < high + PLAYER_STEP
  {
    var p1 := if back && pos > low then pos - PLAYER_STEP else pos;
    if fwd && p1 + SHIP_SIZE < high then p1 + PLAYER_STEP else p1
  }

  /**
    The four guarded player moves of a tick: left while x > 0, right while
    x + 24 < width, up while y is below 60% of the height, down while
    y + 24 < height. Only the position changes.
   */
  function MovePlayer(p: Player, a: Arena): (r: Player)
    ensures r.(x := p.x, y := p.y) == p
    ensures r.x == StepAxis(p.x, p.left, p.right, 0.0, a.width)
    ensures r.y == StepAxis(p.y, p.up, p.down, a.height * PLAYER_ZONE, a.height)
    ensures InPlayerZone(p, a) ==> InPlayerZone(r, a)
  {
    p.(x := StepAxis(p.x, p.left, p.right, 0.0, a.width),
       y := StepAxis(p.y, p.up, p.down, a.height * PLAYER_ZONE, a.height))
  }

  /** The enemy's next position would touch or cross the left or right edge. */
  predicate CrossesX(e: Enemy, vx: real, a: Arena)
  {
    e.x + vx / TICK_DIVISOR <= 0.0 || e.x + SHIP_SIZE + vx / TICK_DIVISOR >= a.width
  }

  /** The enemy's next position would touch or cross the top edge or the bottom of the top zone. */
  predicate CrossesY(e: Enemy, vy: real, a: Arena)
  {
    e.y + vy / TICK_DIVISOR <= 0.0 || e.y + SHIP_SIZE + vy / TICK_DIVISOR >= a.height * TOP_LIMIT
  }

  datatype Flips = Flips(x: bool, y: bool)

  /**
    The scan over every enemy's pre-move projection: flip an axis exactly when
    some enemy would reach that axis's boundary.
   */
  function ScanFlips(es: seq<Enemy>, vx: real, vy: real, a: Arena): (f: Flips)
    ensures f.x <==> exists i :: 0 <= i < |es| && CrossesX(es[i], vx, a)
    ensures f.y <==> exists i :: 0 <= i < |es| && CrossesY(es[i], vy, a)
    decreases |es|
  {
    if |es| == 0 then Flips(false, false)
    else
      var rest := ScanFlips(es[1..], vx, vy, a);
      assert forall i :: 1 <= i < |es| ==> es[i] == es[1..][i - 1];
      Flips(CrossesX(es[0], vx, a) || rest.x, CrossesY(es[0], vy, a) || rest.y)
  }

  /** A bounce negates a velocity component and never changes its magnitude. */
  function Bounce(v: real, flip: bool): (r: real)
    ensures Abs(r) == Abs(v)
    ensures flip ==> r == -v
    ensures !flip ==> r == v
  {
    if flip then -v else v
  }

  /** Moves every enemy by the same offset; rows and relative offsets are kept. */
  function Translate(es: seq<Enemy>, dx: real, dy: real): (r: seq<Enemy>)
    ensures |r| == |es|
    ensures forall i :: 0 <= i < |es| ==> r[i].row == es[i].row
    ensures forall i :: 0 <= i < |es| ==> r[i].x - es[i].x == dx && r[i].y - es[i].y == dy
    ensures forall i, j :: 0 <= i < |es| && 0 <= j < |es| ==>
      r[i].x - r[j].x == es[i].x - es[j].x && r[i].y - r[j].y == es[i].y - es[j].y
  {
    seq(|es|, i requires 0 <= i < |es| => es[i].(x := es[i].x + dx, y := es[i].y + dy))
  }

  datatype Formation = Formation(enemies: seq<Enemy>, vx: real, vy: real)

  /**
    The formation's move for one tick: decide both flips from the positions
    the enemies would reach at the current velocity, apply them, then move
    every enemy by the (possibly flipped) velocity over the tick divisor.
   */
  function MoveFormation(es: seq<Enemy>, vx: real, vy: real, a: Arena): (r: Formation)
    ensures Abs(r.vx) == Abs(vx) && Abs(r.vy) == Abs(vy)
    ensures r.vx == (if exists i :: 0 <= i < |es| && CrossesX(es[i], vx, a) then -vx else vx)
    ensures r.vy == (if exists i :: 0 <= i < |es| && CrossesY(es[i], vy, a) then -vy else vy)
    ensures |r.enemies| == |es|
    ensures forall i :: 0 <= i < |es| ==>
      && r.enemies[i].row == es[i].row
      && r.enemies[i].x == es[i].x + r.vx / TICK_DIVISOR
      && r.enemies[i].y == es[i].y + r.vy / TICK_DIVISOR
  {
    var f := ScanFlips(es, vx, vy, a);
    var nvx := Bounce(vx, f.x);
    var nvy := Bounce(vy, f.y);
    Formation(Translate(es, nvx / TICK_DIVISOR, nvy / TICK_DIVISOR), nvx, nvy)
  }

  /**
    The formation at the left edge moving left turns around in the same tick
    and every enemy moves right.
   */
  lemma LeftEdgeBounce(es: seq<Enemy>, k: nat, vy: real, a: Arena)
    requires k < |es| && es[k].x == 0.0
    ensures var r := MoveFormation(es, -50.0, vy, a);
      r.vx == 50.0 && forall i :: 0 <= i < |es| ==> r.enemies[i].x == es[i].x + 1.0
  {
    assert CrossesX(es[k], -50.0, a);
  }

  /** Moves a bullet by its own velocity over the tick divisor. */
  function Advance(bs: seq<Bullet>): (r: seq<Bullet>)
    ensures |r| == |bs|
    ensures forall i :: 0 <= i < |bs| ==>
      && r[i].vx == bs[i].vx && r[i].vy == bs[i].vy
      && r[i].x - bs[i].x == bs[i].vx / TICK_DIVISOR
      && r[i].y - bs[i].y == bs[i].vy / TICK_DIVISOR
  {
    seq(|bs|, i requires 0 <= i < |bs| =>
      bs[i].(x := bs[i].x + bs[i].vx / TICK_DIVISOR, y := bs[i].y + bs[i].vy / TICK_DIVISOR))
  }

  /** `Array.prototype.filter`: keeps, in order, the elements satisfying `keep`. */
  function Filter<T(!new)>(s: seq<T>, keep: T -> bool): (r: seq<T>)
    ensures |r| <= |s|
    ensures forall x :: x in r <==> x in s && keep(x)
    ensures multiset(r) <= multiset(s)
    decreases |s|
  {
    if |s| == 0 then []
    else
      var rest := Filter(s[1..], keep);
      assert s == [s[0]] + s[1..];
      if keep(s[0]) then [s[0]] + rest else rest
  }

  /** Filtering keeps every copy of a kept element and no copy of a dropped one. */
  lemma {:induction false} FilterCount<T(!new)>(s: seq<T>, keep: T -> bool)
    ensures forall x :: multiset(Filter(s, keep))[x] == if keep(x) then multiset(s)[x] else 0
    decreases |s|
  {
    if |s| > 0 {
      FilterCount(s[1..], keep);
      assert s == [s[0]] + s[1..];
      assert multiset(s) == multiset{s[0]} + multiset(s[1..]);
      var rest := Filter(s[1..], keep);
      assert multiset(Filter(s, keep)) == (if keep(s[0]) then multiset{s[0]} else multiset{}) + multiset(rest);
    }
  }

  /** Filtering a concatenation filters each part and keeps them in order. */
  lemma {:induction false} FilterAppend<T(!new)>(a: seq<T>, b: seq<T>, keep: T -> bool)
    ensures Filter(a + b, keep) == Filter(a, keep) + Filter(b, keep)
    decreases |a|
  {
    if |a| > 0 {
      assert (a + b)[0] == a[0];
      assert (a + b)[1..] == a[1..] + b;
      FilterAppend(a[1..], b, keep);
    } else {
      assert a + b == b;
    }
  }

  /** A kept last element is still the last one after filtering. */
  lemma FilterKeepsLast<T(!new)>(s: seq<T>, keep: T -> bool)
    requires |s| > 0 && keep(s[|s| - 1])
    ensures |Filter(s, keep)| > 0 && Filter(s, keep)[|Filter(s, keep)| - 1] == s[|s| - 1]
  {
    var last := s[|s| - 1];
    assert s == s[..|s| - 1] + [last];
    FilterAppend(s[..|s| - 1], [last], keep);
    assert [last][1..] == [];
    assert Filter([last], keep) == [last];
  }

  /** A player shot is kept while it is less than ten units past the top, left or right edge. */
  predicate PlayerShotInFlight(b: Bullet, a: Arena)
  {
    b.y > -CULL_MARGIN && b.x > -CULL_MARGIN && b.x < a.width + CULL_MARGIN
  }

  /** An enemy shot is kept until it is ten units past the bottom edge. */
  predicate EnemyShotInFlight(b: Bullet, a: Arena)
  {
    b.y < a.height + CULL_MARGIN
  }

  function CullPlayerShots(bs: seq<Bullet>, a: Arena): (r: seq<Bullet>)
    ensures |r| <= |bs|
    ensures forall b :: b in r <==> b in bs && PlayerShotInFlight(b, a)
    ensures forall b :: multiset(r)[b] == if PlayerShotInFlight(b, a) then multiset(bs)[b] else 0
    ensures multiset(r) <= multiset(bs)
  {
    FilterCount(bs, b => PlayerShotInFlight(b, a));
    Filter(bs, b => PlayerShotInFlight(b, a))
  }

  function CullEnemyShots(bs: seq<Bullet>, a: Arena): (r: seq<Bullet>)
    ensures |r| <= |bs|
    ensures forall b :: b in r <==> b in bs && EnemyShotInFlight(b, a)
    ensures forall b :: multiset(r)[b] == if EnemyShotInFlight(b, a) then multiset(bs)[b] else 0
    ensures multiset(r) <= multiset(bs)
    ensures |bs| > 0 && EnemyShotInFlight(bs[|bs| - 1], a) ==> |r| > 0 && r[|r| - 1] == bs[|bs| - 1]
  {
    FilterCount(bs, b => EnemyShotInFlight(b, a));
    if |bs| > 0 && EnemyShotInFlight(bs[|bs| - 1], a) then
      FilterKeepsLast(bs, b => EnemyShotInFlight(b, a));
      Filter(bs, b => EnemyShotInFlight(b, a))
    else Filter(bs, b => EnemyShotInFlight(b, a))
  }

  /** Culling keeps the player shots' order: culling a concatenation culls each part. */
  lemma CullPlayerShotsAppend(s1: seq<Bullet>, s2: seq<Bullet>, a: Arena)
    ensures CullPlayerShots(s1 + s2, a) == CullPlayerShots(s1, a) + CullPlayerShots(s2, a)
  {
    FilterAppend(s1, s2, b => PlayerShotInFlight(b, a));
  }

  /** Culling keeps the enemy shots' order: culling a concatenation culls each part. */
  lemma CullEnemyShotsAppend(s1: seq<Bullet>, s2: seq<Bullet>, a: Arena)
    ensures CullEnemyShots(s1 + s2, a) == CullEnemyShots(s1, a) + CullEnemyShots(s2, a)
  {
    FilterAppend(s1, s2, b => EnemyShotInFlight(b, a));
  }

  /**
    The index `Math.floor(roll * n)` picks for a roll in [0, 1): always a
    valid index, and every index is picked by some roll.
   */
  function PickIndex(roll: real, n: nat): (i: nat)
    requires 0.0 <= roll < 1.0 && n > 0
    ensures i < n
  {
    var f := (roll * n as real).Floor;
    assert roll * n as real < n as real;
    f
  }

  lemma {:induction false} PickIndexReachesEvery(i: nat, n: nat)
    requires i < n
    ensures 0.0 <= i as real / n as real < 1.0
    ensures PickIndex(i as real / n as real, n) == i
  {
    var roll := i as real / n as real;
    assert roll * n as real == i as real;
  }

  /** An enemy shot from beneath the middle of the enemy, falling at the given speed. */
  function ShotBelow(e: Enemy, speed: real): Bullet
  {
    Bullet(e.x + SHIP_SIZE / 2.0 - 3.0, e.y + SHIP_SIZE, 0.0, speed)
  }

  /** Enemy fire is gated while the newest enemy shot is still above 75% of the height. */
  predicate MayFire(bs: seq<Bullet>, a: Arena)
  {
    |bs| == 0 || bs[|bs| - 1].y >= a.height * FIRE_GATE
  }

  /**
    `enemyFire`: when the gate is open and some enemy survives, the enemy the
    roll picks adds one shot below itself at the current shot speed;
    otherwise nothing changes.
   */
  function EnemyFire(es: seq<Enemy>, bs: seq<Bullet>, a: Arena, speed: real, roll: real): (r: seq<Bullet>)
    requires 0.0 <= roll < 1.0
    ensures !(MayFire(bs, a) && |es| > 0) ==> r == bs
    ensures MayFire(bs, a) && |es| > 0 ==>
      && |r| == |bs| + 1 && r[..|bs|] == bs
      && exists i :: 0 <= i < |es| && r[|bs|] == ShotBelow(es[i], speed)
    ensures EnemyShotsAtSpeed(bs, speed) ==> EnemyShotsAtSpeed(r, speed)
  {
    if !MayFire(bs, a) || |es| == 0 then bs
    else
      var i := PickIndex(roll, |es|);
      var r := bs + [ShotBelow(es[i], speed)];
      assert r[|bs|] == ShotBelow(es[i], speed);
      r
  }
}

=== FILE: options.dfy ===
/** The optional value used wherever the source reads a slot that may be absent. */
module Options {

  datatype Option<T> = None | Some(value: T)
}

=== FILE: text.dfy ===
/**
  The string operations the game and the account screens rely on: ASCII case
  mapping (the model of JavaScript's toLowerCase/toUpperCase), the ASCII
  character classes of the password rules, JavaScript's trim, the UTF-16
  length behind `String.length`, and the decimal rendering of a score inside
  a template literal.
 */
module Text {

  predicate IsUpperAscii(c: char) { 'A' <= c <= 'Z' }

  predicate IsLowerAscii(c: char) { 'a' <= c <= 'z' }

  /** The class `[A-Za-z]` of a regular expression. */
  predicate IsAsciiLetter(c: char) { IsUpperAscii(c) || IsLowerAscii(c) }

  /** The class `\d` of a regular expression without the `u` flag. */
  predicate IsAsciiDigit(c: char) { '0' <= c <= '9' }

  function LowerChar(c: char): (r: char)
    ensures !IsUpperAscii(r)
    ensures IsUpperAscii(c) ==> IsLowerAscii(r)
    ensures !IsUpperAscii(c) ==> r == c
  {
    if IsUpperAscii(c) then (c as int + 32) as char else c
  }

  function UpperChar(c: char): (r: char)
    ensures !IsLowerAscii(r)
    ensures IsLowerAscii(c) ==> IsUpperAscii(r)
    ensures !IsLowerAscii(c) ==> r == c
  {
    if IsLowerAscii(c) then (c as int - 32) as char else c
  }

  /** Upper- and lower-casing a character agree once both are lower-cased. */
  lemma LowerOfUpperChar(c: char)
    ensures LowerChar(UpperChar(c)) == LowerChar(c)
  {
  }

  function Lower(s: string): (r: string)
    ensures |r| == |s|
    ensures forall i :: 0 <= i < |s| ==> r[i] == LowerChar(s[i])
  {
    seq(|s|, i requires 0 <= i < |s| => LowerChar(s[i]))
  }

  function Upper(s: string): (r: string)
    ensures |r| == |s|
    ensures forall i :: 0 <= i < |s| ==> r[i] == UpperChar(s[i])
  {
    seq(|s|, i requires 0 <= i < |s| => UpperChar(s[i]))
  }

  /** Case-insensitive key comparison, `a.toLowerCase() === b.toLowerCase()`. */
  predicate SameIgnoringCase(a: string, b: string) { Lower(a) == Lower(b) }

  /** Lower-casing a string after upper-casing it is the same as lower-casing it directly. */
  lemma LowerOfUpper(s: string)
    ensures Lower(Upper(s)) == Lower(s)
  {
    forall i | 0 <= i < |s|
      ensures Lower(Upper(s))[i] == Lower(s)[i]
    {
      LowerOfUpperChar(s[i]);
    }
  }

  /**
    JavaScript's WhiteSpace and LineTerminator code points, the set
    `String.prototype.trim` removes from both ends.
   */
  predicate IsJsSpace(c: char)
  {
    || c == ' ' || c == '\t' || c == '\n' || c == '\r'
    || c == '\U{000B}' || c == '\U{000C}' || c == '\U{00A0}' || c == '\U{1680}'
    || ('\U{2000}' <= c <= '\U{200A}')
    || c == '\U{2028}' || c == '\U{2029}' || c == '\U{202F}' || c == '\U{205F}'
    || c == '\U{3000}' || c == '\U{FEFF}'
  }

  function TrimStart(s: string): (r: string)
    ensures |r| <= |s| && r == s[|s| - |r|..]
    ensures forall i :: 0 <= i < |s| - |r| ==> IsJsSpace(s[i])
    ensures r == [] || !IsJsSpace(r[0])
  {
    if |s| > 0 && IsJsSpace(s[0]) then TrimStart(s[1..]) else s
  }

  function TrimEnd(s: string): (r: string)
    ensures |r| <= |s| && r == s[..|r|]
    ensures forall i :: |r| <= i < |s| ==> IsJsSpace(s[i])
    ensures r == [] || !IsJsSpace(r[|r| - 1])
  {
    if |s| > 0 && IsJsSpace(s[|s| - 1]) then TrimEnd(s[..|s| - 1]) else s
  }

  /**
    `s.trim()`: what is left of `s` after removing its leading and trailing
    white space; it neither starts nor ends with white space.
    `TrimStripsSpace` says which infix of `s` it is.
   */
  function Trim(s: string): (r: string)
    ensures r == [] || (!IsJsSpace(r[0]) && !IsJsSpace(r[|r| - 1]))
  {
    var t := TrimStart(s);
    var r := TrimEnd(t);
    assert r == [] || r[0] == t[0];
    r
  }

  /** The number of white-space characters `s` starts with. */
  function LeadingSpaces(s: string): (n: nat)
    ensures n <= |s|
    ensures forall k :: 0 <= k < n ==> IsJsSpace(s[k])
    ensures n < |s| ==> !IsJsSpace(s[n])
  {
    if |s| > 0 && IsJsSpace(s[0]) then 1 + LeadingSpaces(s[1..]) else 0
  }

  /**
    `r` is `s` with white space, and only white space, removed: the first
    `i` characters and everything after `r`.
   */
  predicate StripsSpaceAround(s: string, r: string, i: nat)
  {
    && i + |r| <= |s| && r == s[i..i + |r|]
    && (forall k :: 0 <= k < i ==> IsJsSpace(s[k]))
    && (forall k :: i + |r| <= k < |s| ==> IsJsSpace(s[k]))
  }

  lemma {:induction false} TrimStartDropsLeadingSpaces(s: string)
    ensures TrimStart(s) == s[LeadingSpaces(s)..]
  {
    if |s| > 0 && IsJsSpace(s[0]) {
      TrimStartDropsLeadingSpaces(s[1..]);
      assert s[1..][LeadingSpaces(s[1..])..] == s[LeadingSpaces(s)..];
    }
  }

  /**
    Trimming removes white space, and only white space, from the two ends:
    `Trim(s)` is the infix of `s` after its leading white space, and all
    that follows it is white space too.
   */
  lemma TrimStripsSpace(s: string)
    ensures StripsSpaceAround(s, Trim(s), LeadingSpaces(s))
  {
    var i := LeadingSpaces(s);
    TrimStartDropsLeadingSpaces(s);
    InfixBetweenSpaces(s, TrimStart(s), Trim(s), i);
  }

  /**
    Cutting white space off the front of `s` (giving `t`) and then off the
    back of `t` (giving `r`) leaves an infix of `s` with only white space
    around it.
   */
  lemma InfixBetweenSpaces(s: string, t: string, r: string, i: nat)
    requires i <= |s| && t == s[i..]
    requires |r| <= |t| && r == t[..|r|]
    requires forall k :: 0 <= k < i ==> IsJsSpace(s[k])
    requires forall k :: |r| <= k < |t| ==> IsJsSpace(t[k])
    ensures StripsSpaceAround(s, r, i)
  {
    assert r == s[i..i + |r|];
    forall k | i + |r| <= k < |s|
      ensures IsJsSpace(s[k])
    {
      assert s[k] == t[k - i];
    }
  }

  /** Trimming twice trims nothing more. */
  lemma {:induction false} TrimIdempotent(s: string)
    ensures Trim(Trim(s)) == Trim(s)
  {
    var r := Trim(s);
    assert TrimStart(r) == r;
    assert TrimEnd(r) == r;
  }

  /** `s.length`: the number of UTF-16 code units, two for a code point above U+FFFF. */
  function Utf16Length(s: string): (n: nat)
    ensures |s| <= n <= 2 * |s|
  {
    if |s| == 0 then 0
    else (if s[0] as int >= 0x1_0000 then 2 else 1) + Utf16Length(s[1..])
  }

  function DigitChar(d: nat): (c: char)
    requires d < 10
    ensures IsAsciiDigit(c) && c as int - '0' as int == d
  {
    ('0' as int + d) as char
  }

  /** The decimal text of a non-negative integer, as `${n}` renders it. */
  function Decimal(n: nat): (r: string)
    ensures |r| >= 1
    ensures forall i :: 0 <= i < |r| ==> IsAsciiDigit(r[i])
    ensures |r| > 1 ==> r[0] != '0'
    decreases n
  {
    if n < 10 then [DigitChar(n)] else Decimal(n / 10) + [DigitChar(n % 10)]
  }

  /** Reads a string of decimal digits back as a number. */
  function ParseDecimal(s: string): nat
    requires forall i :: 0 <= i < |s| ==> IsAsciiDigit(s[i])
    decreases |s|
  {
    if |s| == 0 then 0
    else
      var d := s[|s| - 1] as int - '0' as int;
      assert IsAsciiDigit(s[|s| - 1]);
      10 * ParseDecimal(s[..|s| - 1]) + d
  }

  lemma {:induction false} DecimalRoundTrip(n: nat)
    ensures ParseDecimal(Decimal(n)) == n
    decreases n
  {
    if n >= 10 {
      var r := Decimal(n);
      assert r[..|r| - 1] == Decimal(n / 10);
      DecimalRoundTrip(n / 10);
    }
  }
}
